=== FILE: README.md ===
# west front-end router, modelled in Dafny

This project models the front end of `west`, the Zephyr meta-tool, that
every invocation passes through:

- the catalogue of built-in commands and the set of names an extension
  command may never take (`BUILTIN_COMMAND_NAMES`);
- the external-command loader, which filters the commands that workspace
  projects contribute so that none shadows a built-in and no name is
  contributed twice, and the `commands.allow_external` switch in front of it;
- `parse_args`, which settles `-h`, an unknown command, `-V`, the
  resolution of `ZEPHYR_BASE` and a missing command, in that order;
- `set_zephyr_base`, with its command-line / environment / configuration
  precedence, the `zephyr.base-prefer` override and the mismatch warning;
- `west help <name>`, routed to the top-level help, the help of `help`
  itself, a built-in's help, or an external command's own `--help`;
- the top-level help: the width clamp, the help offset, the
  "thing + help" layout with its two modes, the option synopsis that
  `add_argument` records, and the grouped listing of commands;
- the exception ladder of `main`: exit codes, error reports, the stack
  trace or its hint, and the restart after a self-update;
- the configuration layer: which files are read and in which order, the
  later-file-wins lookup, the write target of `update_config`,
  `use_colors`;
- `west config`: reading a dotted name through the layered configuration,
  or writing it to one file.

Modules, one file each:

| file | module | what it holds |
|---|---|---|
| util.dfy | `Util` | `Option`, `Result`, Python truthiness, `str.split()` as `Words`, `' '.join` |
| registry.dfy | `Registry` | the command groups and `BuiltinNames` |
| externals.dfy | `Externals` | the external-command table, the filter, its first-wins reference definition |
| configuration.dfy | `Configuration` | config file paths, layered reading, `UpdateConfig`, booleans |
| zephyr.dfy | `ZephyrBase` | `SetZephyrBase` and the precedence chain |
| helpformat.dfy | `HelpFormat` | widths, greedy wrap, thing + help layout, option synopsis, top-level help |
| dispatch.dfy | `Dispatch` | `ParseArgs`, `HandlerFor`, `HelpRoute`, `Govern`, `ExitOf` |
| configcmd.dfy | `ConfigCommand` | `west config`'s `Run` |

The outside world is passed in as parameters:
- `os.path.abspath` is a function parameter `abspath`.
- The environment is a map.
- The configuration files are a map from path to sections.
- The platform, `~` expansion, `XDG_CONFIG_HOME`, `PROGRAMDATA` and
  `west_dir()` are fields of a `Host` record.
- Project discovery (`external_commands()`) is a `Discovery` value: a
  table, or one of the two errors `main` tolerates.
- The terminal's column count is an integer.
- How a command ended is an `Outcome`, and how waiting for the restarted
  west ended is a `ChildWait`.

Points where the model follows the code exactly:
- A short thing shares its row with the first help line when its length is
  at most `help_offset - 1` (`main.py:221`).
- A command that refuses its context prints its reasons only; there is
  never a stack trace or hint for it (`main.py:598-601`).
- `status` is a built-in command, so an external `status` is dropped as
  shadowing a built-in.
- After `west help <name>`, a failure is reported for `<name>`: the `help`
  subparser's positional is stored under `command` (`main.py:477`), the
  destination of the command choice (`main.py:292`). `TopArgs` keeps the two
  apart, and `ReportedCommand` says which one `main` prints.

## Model

| member | source | states |
|---|---|---|
| Util.SplitJoinRoundTrip | src/west/main.py:216 | joining words with single spaces and splitting again gives back exactly those words |
| Util.NormalizeKeepsWords | src/west/main.py:216 | `' '.join(help.split())` keeps the words of the help and is idempotent |
| Registry.BuiltinNames | src/west/main.py:57-61 | the reserved names are exactly `help` plus every name that some group, hidden or not, declares |
| Registry.WestBuiltinNames | src/west/main.py:35-61 | for west's registry the reserved names are `help`, the eight project command names and `post-init`, whatever the help texts are |
| Registry.WestGroups | src/west/main.py:35-55 | two groups: the titled project group holding list, manifest, diff, status, update, selfupdate, forall and config in that order, then the untitled hidden group holding post-init; each command carries its own help text |
| Registry.FindCommand | src/west/main.py:344-348 | the search finds a command with the asked name, and finds none exactly when no group declares that name |
| Configuration.JoinPath | src/west/configuration.py:90-93 | the joined path starts with the directory and ends with the component |
| Configuration.SystemPath | src/west/configuration.py:29-36 | the system file is `/etc/westconfig` on Linux and `/usr/local/etc/westconfig` on macOS; on Windows it is `\west\config` under PROGRAMDATA, or under the unexpanded `%PROGRAMDATA%` when the variable is unset |
| Configuration.XdgPath | src/west/configuration.py:89-93 | the XDG file lies under `XDG_CONFIG_HOME`, or `~/.config` when unset, and is called `config` |
| Configuration.XdgOnLinux | src/west/configuration.py:89-93 | on Linux the XDG file is that base followed by `/west/config` |
| Configuration.LocalPath | src/west/configuration.py:100-101 | the instance-local file is `config` inside the west directory, joined with the platform separator |
| Configuration.ConfigPaths | src/west/configuration.py:85-101 | with every file selected: system first, then the XDG file (Linux only), then global, then instance-local last; a specific selection reads that one file |
| Configuration.Overlay | src/west/configuration.py:106 | reading one more file: its keys win, keys it lacks keep their earlier values, no other key appears |
| Configuration.LayeredLookup | src/west/configuration.py:77-79 | a lookup after layered reading returns the value of the last file in the list that defines the key (independent reference `LastDefining`) |
| Configuration.ReadLayeredKeys | src/west/configuration.py:106 | after layered reading a key is defined exactly when some existing file among the paths defines it, missing files being skipped |
| Configuration.TargetIsReadLayer | src/west/configuration.py:86-101 | the file a specific selection names is the only file read for it and one of the files read for every selection: the system file first, the instance-local file last |
| Configuration.LocalWins | src/west/configuration.py:77-79 | a key defined in the instance-local file is read with the local value whatever the other files say |
| Configuration.GlobalBeatsSystem | src/west/configuration.py:77-79 | a key defined globally and not locally is read with the global value whatever the system file says |
| Configuration.SingleFileLookup | src/west/configuration.py:86-101 | reading one selected file sees that file's value or nothing |
| Configuration.UpdateConfig | src/west/configuration.py:109-130 | ALL is refused exactly; otherwise the key is set in the target file, created with its section when absent; the file gains at most that section and the section at most that key; every other file, section and key is unchanged |
| Configuration.ParseBoolean | src/west/configuration.py:135 | true exactly for 1/yes/true/on and false exactly for 0/no/false/off, in any letter case; anything else is an error |
| Configuration.GetBoolean | src/west/configuration.py:135 | true exactly when the key is missing with a true fallback or holds a true word; false exactly when it is missing with a false fallback or holds a false word; an error exactly when it holds any other value |
| Configuration.UseColors | src/west/configuration.py:133-135 | colour is on when `color.ui` is unset and off exactly when it is a false boolean word |
| Externals.FilterSpecs | src/west/main.py:515-529 | the kept specs are a subsequence of the project's specs, none reserved or already taken; the taken names grow by the kept names; the warnings are, in order, one per dropped spec with its project and name, shadowing a built-in when reserved and already defined otherwise (reference walk `DropWarnings`) |
| Externals.FilterTable | src/west/main.py:512-530 | project paths and order are kept, each list is replaced by a subsequence of itself, and the warnings are those of the reference walk `DropWarnings` over all specs in table order |
| Externals.DropWarningsAppend | src/west/main.py:512-529 | warning about two lists in turn is warning about the first, then about the second with the first's names already met |
| Externals.FilterTableKeepsFresh | src/west/main.py:512-530 | a table whose names are distinct and neither reserved nor taken comes out of the filter unchanged |
| Externals.FilterIdempotent | src/west/main.py:512-530 | filtering an already filtered table again changes nothing |
| Externals.FilterTableIsDedup | src/west/main.py:512-530 | the filtered table, flattened, is the first-wins deduplication of all specs against the reserved names |
| Externals.DedupDistinct | src/west/main.py:522-529 | no name survives twice |
| Externals.DedupCovers | src/west/main.py:512-530 | every name that is not reserved survives |
| Externals.DedupFirstWins | src/west/main.py:512-530 | each survivor is the first spec with its name, in project order and then declaration order |
| Externals.FilterGuarantees | src/west/main.py:505-532 | over the whole table: no survivor is reserved, names are distinct, the order is kept, every non-reserved name survives, and the first contribution wins |
| Externals.FirstProjectWins | src/west/main.py:522-527 | two projects contributing `hello`: the first keeps it and the second gets an already-defined warning |
| Externals.AllowExternalAsWritten | src/west/main.py:506-507 | as written: external commands are off exactly when the setting is the empty string |
| Externals.AllowExternal | src/west/main.py:506-507 | corrected: on exactly when unset or a true word, off exactly for a false word, an error exactly for any other value |
| Externals.AllowExternalFalseIgnored | src/west/main.py:506-507 | `allow_external = false` leaves external commands on as written, and switches them off under the corrected reading |
| Externals.LoadExternalsAsWritten | src/west/main.py:505-532 | as written: an empty setting always gives no table and no warning; a discovery error leaves the table empty (`main.py:546-549`); the result never holds a reserved or repeated name; for any other setting, `false` included, every non-reserved discovered name is loaded and every dropped spec is warned about |
| Externals.LoadExternals | src/west/main.py:505-532 | corrected: an error exactly for a non-boolean setting; no table for a false word; the result never holds a reserved or repeated name; when unset or a true word every non-reserved discovered name is loaded and every dropped spec is warned about |
| ZephyrBase.Decide | src/west/main.py:374-423 | the value comes from the command line (absolute), the environment or the configuration; the warning is given exactly when the environment is used as a fallback and the configuration names another absolute path; "not found" exactly when nothing is resolved |
| ZephyrBase.SetZephyrBase | src/west/main.py:360-426 | ZEPHYR_BASE is set to the absolute path of the chosen value, left alone when none is found, and nothing else in the environment changes |
| ZephyrBase.ResolutionFollowsPrecedence | src/west/main.py:362-372 | the result is the first present source of the documented chain (independent reference `FirstPresent` over `Candidates`) |
| ZephyrBase.WarningDoesNotDecide | src/west/main.py:400-415 | the warning never changes which source is chosen |
| HelpFormat.HelpWidth | src/west/main.py:123 | at most 75 columns, COLUMNS - 2 on narrower terminals, never below 30 |
| HelpFormat.HelpOffset | src/west/main.py:205 | the help offset is between 10 and 24, and is width - 20 in between |
| HelpFormat.FitCount | src/west/main.py:217-219 | a line takes at least one word and as many as fit, and would overflow with one more |
| HelpFormat.Wrap | src/west/main.py:217-219 | the lines hold all the words in order; each line holds one word or fits; no line could have taken the next line's first word |
| HelpFormat.HelpLines | src/west/main.py:214-219 | every help line starts at the help offset; together they carry exactly the words of the help; blank help gives no line; a line is too wide only when it holds one over-long word |
| HelpFormat.FormatThingAndHelpAsWritten | src/west/main.py:202-233 | as written: fails exactly on blank help next to a short thing, and otherwise agrees with the corrected layout |
| HelpFormat.BlankHelpFails | src/west/main.py:232 | a short thing with whitespace-only help reaches the failing index |
| HelpFormat.FormatThingAndHelp | src/west/main.py:202-233 | the first row starts with the thing; later rows start at the help offset; no help gives the thing alone; a long thing gets a row of its own; a short thing shares the first help line's row, whose help text stays at the offset |
| HelpFormat.FormatKeepsWords | src/west/main.py:202-233 | the rows carry exactly the words of the thing followed by the words of the help |
| HelpFormat.PackedRowWords | src/west/main.py:232 | overlaying a short thing on a help line's indent keeps the words of both |
| HelpFormat.LStripDashes | src/west/main.py:250 | the result is a suffix of the option without a leading dash, and everything removed is a dash |
| HelpFormat.MetavarChar | src/west/main.py:250-251 | a dash becomes an underscore, a lower-case ASCII letter its upper-case partner, any other character stays |
| HelpFormat.DefaultMetavar | src/west/main.py:250-251 | the derived metavar holds no dash and no lower-case letter |
| HelpFormat.DefaultMetavarImage | src/west/main.py:250-251 | the derived metavar is the option after its run of leading dashes, each character mapped on its own |
| HelpFormat.MetavarFixed | src/west/main.py:250-251 | deriving a metavar from a derived metavar gives it back |
| HelpFormat.CollectOptions | src/west/main.py:242-251 | the recorded options are the leading arguments that start with `-`, up to the first that does not; a needed metavar comes from the last of them |
| HelpFormat.AddArgument | src/west/main.py:235-253 | the record holds the leading options and the help; an explicit metavar or a non-storing action is kept as given; otherwise the metavar is derived from the last option, or is absent for a positional |
| HelpFormat.OptionThingEnds | src/west/main.py:178-189 | the synopsis starts with two spaces and the first option, and ends with the last option, each followed by the metavar when there is one; no options give two spaces alone |
| HelpFormat.TwoOptionThing | src/west/main.py:185-189 | two options are shown as `a M, b M` with a metavar and as `a, b` without |
| HelpFormat.TwoOptionsRecorded | src/west/main.py:242-251 | two options are both recorded, and a needed metavar comes from the second |
| HelpFormat.ZephyrBaseSynopsis | src/west/main.py:280-283 | `-z/--zephyr-base` is shown as `-z ZEPHYR_BASE, --zephyr-base ZEPHYR_BASE` |
| HelpFormat.HelpFlagSynopsis | src/west/main.py:277-278 | `-h/--help`, which has a custom action, is shown as `-h, --help` with no metavar |
| HelpFormat.FormatWestOptional | src/west/main.py:178-192 | an optional's rows start with its synopsis and carry its words and its help's words |
| HelpFormat.ShortThingIsPacked | src/west/main.py:227-233 | at width 75 a 10-character thing shares its row with the first help line |
| HelpFormat.LongThingHasOwnRow | src/west/main.py:221-226 | at width 75 a 30-character thing has a row of its own, with the help below at 24 spaces |
| HelpFormat.HelpEntries | src/west/main.py:131-174 | the help starts with the usage, the description and the optional-arguments header, and ends with the epilog; what lies between is stated by `HelpSectionsInOrder` |
| HelpFormat.HelpSectionsInOrder | src/west/main.py:131-174 | the sections come in order, optionals, then built-in groups, then external projects, then the epilog; each recorded optional, each command of a titled group and each external spec with its project header is listed in its own section, whichever of them exist |
| HelpFormat.FormatHelp | src/west/main.py:105-176 | the help text is the printed entries, one per line at the clamped width, with only trailing whitespace removed |
| HelpFormat.HelpEndsWithEpilog | src/west/main.py:174-176 | an epilog not ending in whitespace ends the help text verbatim |
| HelpFormat.RStrip | src/west/main.py:176 | the stripped text is a prefix without trailing whitespace, and only whitespace was removed |
| HelpFormat.CommandRowsList | src/west/main.py:146-147 | every command of a list is listed |
| HelpFormat.GroupRowsList | src/west/main.py:140-148 | every command of a titled group is listed |
| HelpFormat.HiddenGroupAddsNothing | src/west/main.py:141-143 | the hidden group adds no row |
| HelpFormat.SpecRowsList | src/west/main.py:170-171 | every spec of a project's list is listed |
| HelpFormat.ExternalRowsList | src/west/main.py:160-172 | every external command is listed, and so is its project's header |
| HelpFormat.EmptyProjectAddsNothing | src/west/main.py:164-165 | a project whose list was filtered empty adds no row, not even a header |
| HelpFormat.HelpListsBuiltins | src/west/main.py:131-176 | the top-level help lists every command of every titled group |
| HelpFormat.HelpListsExternals | src/west/main.py:131-176 | the top-level help lists every external command of the table and its project's header |
| Dispatch.FindSpec | src/west/main.py:350-353 | the position of the first spec with the name, or nothing exactly when no spec has it |
| Dispatch.ChoiceNames | src/west/main.py:461-477 | the names the top-level parser accepts are exactly `help`, every declared built-in and every external name in the table |
| Dispatch.HandlerFor | src/west/main.py:461-479 | no handler exactly for an unknown name; `help` gets the help handler exactly; a declared name runs the built-in; any other name runs the first spec of that name in table order |
| Dispatch.ParseArgs | src/west/main.py:457-502 | `-h` prints the top-level help; an unknown command is an invalid choice; `-V` prints the version; otherwise ZEPHYR_BASE is resolved, then a missing command is reported or the handler is ready |
| Dispatch.ZephyrBaseSettledBeforeRun | src/west/main.py:496-502 | a command runs only after ZEPHYR_BASE was published as an absolute path, or its absence was reported |
| Dispatch.FilteredNamesReachTheirCommand | src/west/main.py:461-472 | with the filtered table, a built-in name always runs the built-in and a surviving external name always runs one of its specs |
| Dispatch.SurvivorIsNoBuiltin | src/west/main.py:517-521 | no surviving external name is a reserved name |
| Dispatch.HelpRoute | src/west/main.py:334-357 | the top-level help for no target or an unknown one; `help` shows its own help; a declared name shows the built-in's help; otherwise the first external spec is run with `<name> --help` |
| Dispatch.HelpAgreesWithDispatch | src/west/main.py:334-357 | `west help <name>` reaches the same built-in or external spec that `west <name>` runs, and an unknown name falls back to the top-level help |
| Dispatch.FactoryOnlyForExternalNames | src/west/main.py:310-331 | project code is only instantiated for an external name that was asked for, to run it or to show its help |
| Dispatch.Govern | src/west/main.py:557-603 | a restart re-runs west with the same arguments and exits with the child's status, 0 on interrupt, EIO without a status; an interrupt or success exits 0; an error exits with its own code; a subprocess failure reports its exit status and command line first, an extension failure its improper definition first, each followed by exactly one more report: a trace exactly when verbose and a hint exactly when not, for those two failures only; a context refusal reports only its reasons |
| Dispatch.VerbosityOnlyChangesReports | src/west/main.py:584-597 | verbosity never changes the exit code or the restart, and the trace and the hint never both appear |
| Dispatch.ExitOf | src/west/main.py:484-603 | the run exits 0 exactly after help, version, success, an interrupt, a zero status or a restart whose child exits 0 or is interrupted; an unknown command exits 2, a missing command 1; only a handler that ran produces reports or a restart; every report names the command as `args.command` holds it |
| Dispatch.HelpFailureNamesTarget | src/west/main.py:586-601 | after `west help <name>`, an extension or context failure is reported for the help target, not for `help`, because the `help` subparser's positional (`main.py:477`) shares the `command` destination of the subparsers (`main.py:292`) |
| Dispatch.RestartIsTransparent | src/west/main.py:559-578 | after a self-update the child gets exactly the original arguments, and its status is passed through with no report |
| ConfigCommand.SplitOnce | src/west/commands/config.py:106 | `split('.', 1)`: one part exactly when there is no dot, otherwise the dot-free text before the first dot and everything after it |
| ConfigCommand.SplitJoined | src/west/commands/config.py:106-113 | splitting `section.key` with a dot-free section gives back section and key, even when the key holds dots |
| ConfigCommand.ReadSelection | src/west/commands/config.py:104-118 | a read with a file flag sees only the flagged file; a read without one sees the instance-local value whenever that file defines the key |
| ConfigCommand.WriteTarget | src/west/commands/config.py:120-123 | a write goes to the flagged file, or to the instance-local file when no flag was given; never to ALL |
| ConfigCommand.Run | src/west/commands/config.py:102-124 | dies with code 3 exactly when the name has no dot; reads exactly when no value is given, printing the last defining file's value; otherwise writes the value to the target file, adding at most that section and key, and leaves every other file, section and key as it was |
| ConfigCommand.NameWithoutDotDies | tests/west/commands/test_config.py:143-150 | `west config pytest` dies with exit code 3 and the missing-key message |
| ConfigCommand.FirstDotOnly | src/west/commands/config.py:106-113 | `a.b.c` sets key `b.c` in section `a` |
| ConfigCommand.DefaultWriteIsLocal | tests/west/commands/test_config.py:84-99 | a write without a flag lands in the instance-local file and leaves the global file as it was |
| ConfigCommand.WriteThenRead | tests/west/commands/test_config.py:69-82 | writing and then reading with the same flag, or with none, returns the written value, as held in the parsed file map |
| ConfigCommand.LocalOverridesGlobal | tests/west/commands/test_config.py:107-140 | after a global write and then a local write, an unflagged read sees the local value and a global read still sees the global value, as held in the parsed file map |

## Left out

- Command-line parsing itself (argparse) is not modelled: `TopArgs` is its result.
- Dispatch.ParseArgs: lets a top-level `-h` win over an unknown command name wherever each appears. argparse works left to right, so `west bogus -h` fails as an invalid choice; the order of arguments is not part of `TopArgs`.
- Dispatch.ParseArgs: `print_version_info` (which runs `git describe`), `log.set_verbosity` and the printing of help to stdout or stderr are outputs, not modelled.
- HelpFormat.Wrap: greedy wrapping of whole words; textwrap's breaking of over-long words and at hyphens is not modelled, so an over-long word sits alone on a line (as `HelpLines` states).
- HelpFormat.HelpLines: inherits the whole-word wrap of `Wrap`. textwrap breaks an over-long word, and breaks at hyphens, while the model leaves an over-long word alone on a line wider than the width.
- HelpFormat.FormatHelp: the usage line and the printing are given as strings; argparse's own `format_usage` is not modelled.
- Configuration.ReadLayered: the INI syntax of configparser, the DEFAULT section, interpolation, key case folding and keys without values are not modelled; files are already-parsed maps.
- Configuration.ToLower and HelpFormat.MetavarChar: ASCII letters only; Python's Unicode case mapping is not modelled.
- Configuration.JoinPath: `os.path.join` for a relative component only; Windows drive letters are not modelled.
- Configuration.SystemPath: only Linux, macOS and Windows; on any other platform the source has no SYSTEM member, which is not modelled.
- ConfigCommand.WriteThenRead: the round trip holds on the parsed file map, where the writer and the reader share one value. `configobj` quotes some values when it writes the file: the empty string, a value holding a comma or `#`, and one with a leading or trailing space or quote. configparser reads those quotes back verbatim, so `west config --local a.b ""` followed by `west config --local a.b` prints `""`, and `x,y` reads back as `"x,y"`. That quoting is not modelled.
- ConfigCommand.LocalOverridesGlobal: holds for the values as held in the parsed file map; the `configobj` quoting named on the line above (empty values, commas, `#`, edge spaces or quotes) would come back quoted in the source and is not modelled.
- `configobj`'s file writing and the printing of a read value (`log.inf`) are not modelled beyond the resulting file map and the printed value.
- Log output at debug level (`log.dbg`), colorama initialisation and the wording of warnings and errors are not modelled; warnings and errors are datatype values.
- Quoting of command lines for the stack-trace hint (`quote_sh_list`) is not modelled: the hint carries the argument list.
- The factory, class loading and argument re-parsing of an external command (`ext_command_handler`) are not modelled; `CallsFactory` marks where they happen.
- `Popen` failing to start the restarted west, and exceptions outside the ladder of `main`, are not modelled.
- project.py (the command classes) and the manifest module are not part of this model; command help texts are a parameter, and discovery is a `Discovery` value.

## Findings

| source | as written | input that shows it | evidently intended | confidence | as-written member | corrected member |
|---|---|---|---|---|---|---|
| src/west/main.py:506 | `commands.allow_external` is read as a string, so any non-empty value counts as true | `allow_external = false` in a config file: external commands still load | read the setting as a boolean with a true default | medium, not executed | Externals.AllowExternalAsWritten, Externals.AllowExternalFalseIgnored, Externals.LoadExternalsAsWritten | Externals.AllowExternal, Externals.LoadExternals |
| src/west/main.py:232 | for a short thing, the first wrapped help line is indexed even when blank help wrapped to no line | thing `"  x:"` with help `" "` at width 75: IndexError | print the thing alone, as for absent help | high, not executed | HelpFormat.FormatThingAndHelpAsWritten, HelpFormat.BlankHelpFails | HelpFormat.FormatThingAndHelp |

=== FILE: configcmd.dfy ===
/** The `west config` command: a dotted name split into section and key,
    read through the layered configuration when no value is given, written
    to one file otherwise, the instance-local file when none is chosen. */
module ConfigCommand {
  import opened Util
  import opened Configuration

  /** The command's arguments: the dotted name, the optional value, and the
      file chosen by --local, --global or --system, if any. */
  datatype ConfigArgs = ConfigArgs(name: string, value: Option<string>, configfile: Option<ConfigFile>)

  datatype ConfigRun =
    /** log.die with the given exit code. */
    | Died(code: int, message: string)
    /** A read: the value printed, if the setting exists. Nothing is written. */
    | Read(printed: Option<string>)
    /** A write: the configuration files afterwards. */
    | Wrote(files: Files)

  const MissingKeyMessage: string := "missing key, please invoke as: west config <section>.<key>"

  /** str.split(sep, 1): one part when sep does not occur, otherwise the
      text before its first occurrence and everything after it. */
  function SplitOnce(s: string, sep: char): (parts: seq<string>)
    ensures 1 <= |parts| <= 2
    ensures |parts| == 1 <==> sep !in s
    ensures |parts| == 1 ==> parts[0] == s
    ensures |parts| == 2 ==> sep !in parts[0] && parts[0] + [sep] + parts[1] == s
    decreases |s|
  {
    if s == [] then [s]
    else if s[0] == sep then [[], s[1..]]
    else
      var rest := SplitOnce(s[1..], sep);
      assert s == [s[0]] + s[1..];
      if |rest| == 1 then [s] else [[s[0]] + rest[0], rest[1]]
  }

  /** Splitting is the inverse of joining at a dot-free section: the key
      may itself contain dots. */
  lemma {:induction false} SplitJoined(section: string, key: string)
    requires '.' !in section
    ensures SplitOnce(section + "." + key, '.') == [section, key]
    decreases |section|
  {
    var s := section + "." + key;
    if section == [] {
      assert s == ['.'] + key;
      assert s[1..] == key;
    } else {
      assert s[1..] == section[1..] + "." + key;
      SplitJoined(section[1..], key);
      assert [s[0]] + section[1..] == section;
    }
  }

  /** `args.configfile or ConfigFile.ALL`. */
  function Selection(a: ConfigArgs): (which: ConfigFile)
    ensures a.configfile.None? ==> which == All
    ensures a.configfile.Some? ==> which == a.configfile.value
  {
    if a.configfile.Some? then a.configfile.value else All
  }

  /** The file a write goes to: the selected one, or the instance-local file
      when every file is selected. */
  function WriteTarget(a: ConfigArgs): (which: ConfigFile)
    ensures which != All
    ensures Selection(a) != All ==> which == Selection(a)
    ensures Selection(a) == All ==> which == Local
  {
    if Selection(a) == All then Local else Selection(a)
  }

  /** Config.do_run over the host h and the existing files fs. */
  function Run(h: Host, fs: Files, a: ConfigArgs): (r: ConfigRun)
    ensures r.Died? <==> '.' !in a.name
    ensures r.Died? ==> r.code == 3 && r.message == MissingKeyMessage
    ensures r.Read? <==> '.' in a.name && a.value.None?
    ensures r.Read? ==>
      var parts := SplitOnce(a.name, '.');
      r.printed == LastDefining(fs, ConfigPaths(h, Selection(a)), parts[0], parts[1])
    ensures r.Wrote? ==>
      var parts := SplitOnce(a.name, '.');
      var path := TargetPath(h, WriteTarget(a));
      && r.files.Keys == fs.Keys + {path}
      && Defines(r.files, path, parts[0], parts[1])
      && r.files[path][parts[0]][parts[1]] == a.value.value
      && (forall p :: p in fs && p != path ==> r.files[p] == fs[p])
      && r.files[path].Keys == FileOf(fs, path).Keys + {parts[0]}
      && r.files[path][parts[0]].Keys == SectionOf(FileOf(fs, path), parts[0]).Keys + {parts[1]}
      && (forall s :: s in FileOf(fs, path) && s != parts[0] ==> r.files[path][s] == FileOf(fs, path)[s])
      && (forall k :: k in SectionOf(FileOf(fs, path), parts[0]) && k != parts[1] ==>
            r.files[path][parts[0]][k] == SectionOf(FileOf(fs, path), parts[0])[k])
    ensures r.Wrote? ==>
      var parts := SplitOnce(a.name, '.');
      Ok(r.files) == UpdateConfig(h, fs, parts[0], parts[1], a.value.value, WriteTarget(a))
  {
    var parts := SplitOnce(a.name, '.');
    if |parts| != 2 then Died(3, MissingKeyMessage)
    else
      var section, key := parts[0], parts[1];
      match a.value
      case None =>
        var paths := ConfigPaths(h, Selection(a));
        LayeredLookup(fs, paths, section, key);
        Read(Lookup(ReadLayered(fs, paths), section, key))
      case Some(v) =>
        var u := UpdateConfig(h, fs, section, key, v, WriteTarget(a));
        Wrote(u.value)
  }

  /** A read with a file flag sees that one file only; a read without one
      sees the instance-local value whenever the local file defines it. */
  lemma ReadSelection(h: Host, fs: Files, a: ConfigArgs)
    requires a.value.None? && '.' in a.name
    ensures var parts := SplitOnce(a.name, '.');
      && (Selection(a) != All ==>
            var path := TargetPath(h, Selection(a));
            Run(h, fs, a) == Read(if Defines(fs, path, parts[0], parts[1])
                                  then Some(fs[path][parts[0]][parts[1]]) else None))
      && (a.configfile.None? && Defines(fs, LocalPath(h), parts[0], parts[1]) ==>
            Run(h, fs, a) == Read(Some(fs[LocalPath(h)][parts[0]][parts[1]])))
  {
    var parts := SplitOnce(a.name, '.');
    LayeredLookup(fs, ConfigPaths(h, Selection(a)), parts[0], parts[1]);
    if Selection(a) != All {
      SingleFileLookup(h, fs, Selection(a), parts[0], parts[1]);
    }
    if a.configfile.None? && Defines(fs, LocalPath(h), parts[0], parts[1]) {
      LocalWins(h, fs, parts[0], parts[1]);
    }
  }

  /** The files after a run: only a write changes them. */
  function FilesAfter(fs: Files, r: ConfigRun): Files {
    if r.Wrote? then r.files else fs
  }

  /** `west config pytest` dies with exit code 3. */
  lemma NameWithoutDotDies(h: Host, fs: Files)
    ensures Run(h, fs, ConfigArgs("pytest", None, None)) == Died(3, MissingKeyMessage)
  {
    assert '.' !in "pytest";
  }

  /** The name is split at its first dot only. */
  lemma FirstDotOnly(h: Host, fs: Files, value: string)
    ensures var r := Run(h, fs, ConfigArgs("a.b.c", Some(value), Some(Local)));
      r.Wrote? && Defines(r.files, LocalPath(h), "a", "b.c")
  {
    var a := ConfigArgs("a.b.c", Some(value), Some(Local));
    assert "a" + "." + "b.c" == "a.b.c";
    SplitJoined("a", "b.c");
    WriteDefines(h, fs, a, "a", "b.c");
  }

  /** A write whose name splits into a section and a key sets that key in
      the file the write targets and leaves every other file as it was. */
  lemma WriteDefines(h: Host, fs: Files, a: ConfigArgs, section: string, key: string)
    requires a.value.Some? && SplitOnce(a.name, '.') == [section, key]
    ensures var r := Run(h, fs, a);
      var path := TargetPath(h, WriteTarget(a));
      && r.Wrote?
      && Defines(r.files, path, section, key)
      && r.files[path][section][key] == a.value.value
      && r.files.Keys == fs.Keys + {path}
      && (forall p :: p in fs && p != path ==> r.files[p] == fs[p])
  {
    var r := Run(h, fs, a);
    assert r.Wrote?;
  }

  /** A read whose name splits into a section and a key prints that key's
      value after layered reading of the selected files. */
  lemma ReadLooksUp(h: Host, fs: Files, a: ConfigArgs, section: string, key: string)
    requires a.value.None? && SplitOnce(a.name, '.') == [section, key]
    ensures Run(h, fs, a) == Read(Lookup(ReadLayered(fs, ConfigPaths(h, Selection(a))), section, key))
  {
  }

  /** An unflagged write goes to the instance-local file and leaves the
      global file as it was. */
  lemma DefaultWriteIsLocal(h: Host, fs: Files, section: string, key: string, value: string)
    requires '.' !in section
    requires h.globalPath != LocalPath(h)
    ensures var r := Run(h, fs, ConfigArgs(section + "." + key, Some(value), None));
      && r.Wrote?
      && Defines(r.files, LocalPath(h), section, key) && r.files[LocalPath(h)][section][key] == value
      && (h.globalPath in r.files <==> h.globalPath in fs)
      && (h.globalPath in fs ==> r.files[h.globalPath] == fs[h.globalPath])
  {
    SplitJoined(section, key);
    var a := ConfigArgs(section + "." + key, Some(value), None);
    assert WriteTarget(a) == Local;
    WriteDefines(h, fs, a, section, key);
  }

  /** Writing and then reading with the same file flag, or with none,
      returns the value written. */
  lemma WriteThenRead(h: Host, fs: Files, section: string, key: string, value: string,
                      flag: Option<ConfigFile>)
    requires '.' !in section
    ensures var name := section + "." + key;
      var fs' := FilesAfter(fs, Run(h, fs, ConfigArgs(name, Some(value), flag)));
      Run(h, fs', ConfigArgs(name, None, flag)) == Read(Some(value))
  {
    var name := section + "." + key;
    SplitJoined(section, key);
    var a := ConfigArgs(name, Some(value), flag);
    var fs' := FilesAfter(fs, Run(h, fs, a));
    var path := TargetPath(h, WriteTarget(a));
    assert Defines(fs', path, section, key) && fs'[path][section][key] == value;
    if Selection(a) == All {
      LocalWins(h, fs', section, key);
      LayeredLookup(fs', ConfigPaths(h, All), section, key);
    } else {
      SingleFileLookup(h, fs', Selection(a), section, key);
      LayeredLookup(fs', ConfigPaths(h, Selection(a)), section, key);
    }
  }

  /** A global value, then a local value for the same name: an unflagged
      read sees the local one, and the global one is still there. */
  lemma LocalOverridesGlobal(h: Host, fs: Files, section: string, key: string, gv: string, lv: string)
    requires '.' !in section
    requires h.globalPath != LocalPath(h)
    ensures var name := section + "." + key;
      var fs1 := FilesAfter(fs, Run(h, fs, ConfigArgs(name, Some(gv), Some(Global))));
      var fs2 := FilesAfter(fs1, Run(h, fs1, ConfigArgs(name, Some(lv), Some(Local))));
      && Run(h, fs2, ConfigArgs(name, None, None)) == Read(Some(lv))
      && Run(h, fs2, ConfigArgs(name, None, Some(Global))) == Read(Some(gv))
  {
    var name := section + "." + key;
    SplitJoined(section, key);
    var w1 := ConfigArgs(name, Some(gv), Some(Global));
    WriteDefines(h, fs, w1, section, key);
    var fs1 := FilesAfter(fs, Run(h, fs, w1));
    assert Defines(fs1, h.globalPath, section, key) && fs1[h.globalPath][section][key] == gv;
    var w2 := ConfigArgs(name, Some(lv), Some(Local));
    WriteDefines(h, fs1, w2, section, key);
    var fs2 := FilesAfter(fs1, Run(h, fs1, w2));
    assert Defines(fs2, LocalPath(h), section, key) && fs2[LocalPath(h)][section][key] == lv;
    assert fs2[h.globalPath] == fs1[h.globalPath];
    ReadLooksUp(h, fs2, ConfigArgs(name, None, None), section, key);
    LocalWins(h, fs2, section, key);
    ReadLooksUp(h, fs2, ConfigArgs(name, None, Some(Global)), section, key);
    SingleFileLookup(h, fs2, Global, section, key);
  }
}

=== FILE: configuration.dfy ===
/** The configuration layer: which files are read for a given selection and
    in which order, the "later file overrides earlier file" lookup, the write
    target of an update, and the boolean settings read from it.

    File contents are sections of key/value pairs; a file that does not exist
    is simply absent from the file map, as the parser skips missing files. */
module Configuration {
  import opened Util

  /** The ConfigFile enumeration. All selects every file for reading and is
      refused as a write target. */
  datatype ConfigFile = All | System | Global | Local

  datatype Platform = Linux | Darwin | Windows

  /** What the layer needs from the host, with user and variable expansion
      already done: PROGRAMDATA (Windows), the expansion of ~/.westconfig,
      XDG_CONFIG_HOME, the expansion of ~/.config, and west_dir(). */
  datatype Host = Host(
    platform: Platform,
    programData: Option<string>,
    globalPath: string,
    xdgConfigHome: Option<string>,
    userConfigDir: string,
    westDir: string)

  type Section = map<string, string>
  type Ini = map<string, Section>
  /** The existing configuration files, by path. */
  type Files = map<string, Ini>

  /** The file name of the instance-local configuration inside west_dir(). */
  const LocalName: string := "config"

  function Separator(p: Platform): char {
    if p == Windows then '\\' else '/'
  }

  /** os.path.join(a, b) for a relative component b: a separator is added
      unless a is empty or already ends with one. */
  function JoinPath(p: Platform, a: string, b: string): (r: string)
    ensures |r| >= |a| + |b|
    ensures StartsWith(r, a)
    ensures r[|r| - |b|..] == b
  {
    if a == [] || a[|a| - 1] == Separator(p) || (p == Windows && a[|a| - 1] == '/') then a + b
    else a + [Separator(p)] + b
  }

  /** ConfigFile.SYSTEM's value on each platform. On Windows the value is
      expandvars('%PROGRAMDATA%\west\config'), which leaves the variable
      reference in place when it is unset. */
  function SystemPath(h: Host): (path: string)
    ensures h.platform == Linux ==> path == "/etc/westconfig"
    ensures h.platform == Darwin ==> path == "/usr/local/etc/westconfig"
    ensures h.platform == Windows ==>
      && (h.programData.Some? ==> StartsWith(path, h.programData.value))
      && (h.programData.None? ==> StartsWith(path, "%PROGRAMDATA%"))
      && EndsWith(path, "\\west\\config")
  {
    match h.platform
    case Linux => "/etc/westconfig"
    case Darwin => "/usr/local/etc/westconfig"
    case Windows =>
      (if h.programData.Some? then h.programData.value else "%PROGRAMDATA%") + "\\west\\config"
  }

  /** $XDG_CONFIG_HOME/west/config, with ~/.config as the default base. */
  function XdgPath(h: Host): (path: string)
    ensures StartsWith(path, XdgBase(h))
    ensures EndsWith(path, "config")
  {
    JoinPath(h.platform, JoinPath(h.platform, XdgBase(h), "west"), "config")
  }

  function XdgBase(h: Host): string {
    if h.xdgConfigHome.Some? then h.xdgConfigHome.value else h.userConfigDir
  }

  /** On a POSIX platform, joining to a directory that does not end in a
      slash puts exactly one slash in between. */
  lemma JoinWithSlash(p: Platform, a: string, b: string)
    requires p != Windows && a != [] && a[|a| - 1] != '/'
    ensures JoinPath(p, a, b) == a + "/" + b
  {
  }

  /** On Linux the XDG file is the base followed by /west/config. */
  lemma XdgOnLinux(h: Host)
    requires h.platform == Linux
    requires XdgBase(h) != [] && XdgBase(h)[|XdgBase(h)| - 1] != '/'
    ensures XdgPath(h) == XdgBase(h) + "/west/config"
  {
    var base := XdgBase(h);
    JoinWithSlash(Linux, base, "west");
    var dir := base + "/west";
    assert dir[|dir| - 1] == 't';
    JoinWithSlash(Linux, dir, "config");
  }

  function LocalPath(h: Host): (path: string)
    ensures StartsWith(path, h.westDir)
    ensures EndsWith(path, LocalName)
    ensures h.platform != Windows && h.westDir != [] && h.westDir[|h.westDir| - 1] != '/' ==>
      path == h.westDir + "/" + LocalName
  {
    JoinPath(h.platform, h.westDir, LocalName)
  }

  /** The one file a specific selection names, for reading and for writing
      alike: <west_dir>/config for Local, the enumeration value otherwise. */
  function TargetPath(h: Host, which: ConfigFile): string
    requires which != All
  {
    match which
    case Local => LocalPath(h)
    case Global => h.globalPath
    case System => SystemPath(h)
  }

  /** The candidate files read_config gathers, lowest precedence first. */
  function ConfigPaths(h: Host, which: ConfigFile): (files: seq<string>)
    ensures which != All ==> files == [TargetPath(h, which)]
    ensures which == All ==> |files| == (if h.platform == Linux then 4 else 3)
    ensures which == All ==> files[0] == SystemPath(h) && files[|files| - 1] == LocalPath(h)
    ensures which == All ==> files[|files| - 2] == h.globalPath
    ensures which == All && h.platform == Linux ==> files[1] == XdgPath(h)
  {
    match which
    case All =>
      var xdg := if h.platform == Linux then [XdgPath(h)] else [];
      [SystemPath(h)] + xdg + [h.globalPath, LocalPath(h)]
    case System => [SystemPath(h)]
    case Global => [h.globalPath]
    case Local => [LocalPath(h)]
  }

  // ---------------------------------------------------------------------
  // Layered reading

  function SectionOf(ini: Ini, section: string): Section {
    if section in ini then ini[section] else map[]
  }

  /** Reading one more file: its keys override the keys read so far,
      section by section. */
  function Overlay(acc: Ini, f: Ini): (r: Ini)
    ensures r.Keys == acc.Keys + f.Keys
    ensures forall s, k :: k in SectionOf(f, s) ==> s in r && k in r[s] && r[s][k] == SectionOf(f, s)[k]
    ensures forall s, k :: k !in SectionOf(f, s) && k in SectionOf(acc, s) ==>
      s in r && k in r[s] && r[s][k] == SectionOf(acc, s)[k]
    ensures forall s, k :: s in r && k in r[s] ==> k in SectionOf(acc, s) || k in SectionOf(f, s)
  {
    map s | s in acc.Keys + f.Keys :: SectionOf(acc, s) + SectionOf(f, s)
  }

  /** The parser state after reading the existing files among paths, in
      order. */
  function ReadLayered(fs: Files, paths: seq<string>): Ini
    decreases |paths|
  {
    if paths == [] then map[]
    else
      var before := ReadLayered(fs, paths[..|paths| - 1]);
      var last := paths[|paths| - 1];
      if last in fs then Overlay(before, fs[last]) else before
  }

  /** configparser's get(section, key, fallback=None). */
  function Lookup(ini: Ini, section: string, key: string): Option<string> {
    if section in ini && key in ini[section] then Some(ini[section][key]) else None
  }

  predicate Defines(fs: Files, path: string, section: string, key: string) {
    path in fs && section in fs[path] && key in fs[path][section]
  }

  /** Reference reading of the precedence rule: the value comes from the
      last file in the list that defines the key. */
  function LastDefining(fs: Files, paths: seq<string>, section: string, key: string): Option<string>
    decreases |paths|
  {
    if paths == [] then None
    else
      var last := paths[|paths| - 1];
      if Defines(fs, last, section, key) then Some(fs[last][section][key])
      else LastDefining(fs, paths[..|paths| - 1], section, key)
  }

  /** A layered lookup returns the value of the last file that defines the
      key, so later files override earlier ones. */
  lemma {:induction false} LayeredLookup(fs: Files, paths: seq<string>, section: string, key: string)
    ensures Lookup(ReadLayered(fs, paths), section, key) == LastDefining(fs, paths, section, key)
    decreases |paths|
  {
    if paths != [] {
      LayeredLookup(fs, paths[..|paths| - 1], section, key);
      var last := paths[|paths| - 1];
      var before := ReadLayered(fs, paths[..|paths| - 1]);
      if last in fs {
        var r := Overlay(before, fs[last]);
        if key in SectionOf(fs[last], section) {
          assert Lookup(r, section, key) == Some(fs[last][section][key]);
        } else if key in SectionOf(before, section) {
          assert Lookup(r, section, key) == Lookup(before, section, key);
        } else {
          assert Lookup(r, section, key) == None;
        }
      }
    }
  }

  /** The layered state defines exactly the keys some existing file among
      paths defines, whatever their order. */
  lemma {:induction false} ReadLayeredKeys(fs: Files, paths: seq<string>, section: string, key: string)
    ensures Lookup(ReadLayered(fs, paths), section, key).Some? <==>
      exists i :: 0 <= i < |paths| && Defines(fs, paths[i], section, key)
    decreases |paths|
  {
    LayeredLookup(fs, paths, section, key);
    LastDefiningSome(fs, paths, section, key);
  }

  lemma {:induction false} LastDefiningSome(fs: Files, paths: seq<string>, section: string, key: string)
    ensures LastDefining(fs, paths, section, key).Some? <==>
      exists i :: 0 <= i < |paths| && Defines(fs, paths[i], section, key)
    decreases |paths|
  {
    if paths != [] {
      var front := paths[..|paths| - 1];
      LastDefiningSome(fs, front, section, key);
      assert forall i :: 0 <= i < |front| ==> front[i] == paths[i];
      if !Defines(fs, paths[|paths| - 1], section, key) {
        if exists i :: 0 <= i < |paths| && Defines(fs, paths[i], section, key) {
          var i :| 0 <= i < |paths| && Defines(fs, paths[i], section, key);
          assert i < |front| && Defines(fs, front[i], section, key);
        }
      }
    }
  }

  /** The file a specific selection names is the one file read for that
      selection, and it is one of the files read for All: the system file
      first, the instance-local file last. */
  lemma TargetIsReadLayer(h: Host, which: ConfigFile)
    requires which != All
    ensures ConfigPaths(h, which) == [TargetPath(h, which)]
    ensures TargetPath(h, which) in ConfigPaths(h, All)
    ensures which == System ==> ConfigPaths(h, All)[0] == TargetPath(h, which)
    ensures which == Local ==> ConfigPaths(h, All)[|ConfigPaths(h, All)| - 1] == TargetPath(h, which)
  {
    var all := ConfigPaths(h, All);
    if which == Global {
      assert all[|all| - 2] == h.globalPath;
    }
  }

  /** Instance-local configuration has the highest precedence: when the
      local file defines a key, reading every file yields its value. */
  lemma LocalWins(h: Host, fs: Files, section: string, key: string)
    requires Defines(fs, LocalPath(h), section, key)
    ensures Lookup(ReadLayered(fs, ConfigPaths(h, All)), section, key)
      == Some(fs[LocalPath(h)][section][key])
  {
    LayeredLookup(fs, ConfigPaths(h, All), section, key);
  }

  /** The global file beats the system file: when the global file defines a
      key that the local file does not, reading every file yields the global
      value (the XDG file is read before the global one). */
  lemma GlobalBeatsSystem(h: Host, fs: Files, section: string, key: string)
    requires Defines(fs, h.globalPath, section, key)
    requires !Defines(fs, LocalPath(h), section, key)
    ensures Lookup(ReadLayered(fs, ConfigPaths(h, All)), section, key)
      == Some(fs[h.globalPath][section][key])
  {
    var paths := ConfigPaths(h, All);
    LayeredLookup(fs, paths, section, key);
    var init := paths[..|paths| - 1];
    assert paths[|paths| - 1] == LocalPath(h);
    assert LastDefining(fs, paths, section, key) == LastDefining(fs, init, section, key);
    assert init[|init| - 1] == h.globalPath;
    assert LastDefining(fs, init, section, key) == Some(fs[h.globalPath][section][key]);
  }

  /** Reading one specific file sees exactly that file's value. */
  lemma SingleFileLookup(h: Host, fs: Files, which: ConfigFile, section: string, key: string)
    requires which != All
    ensures Lookup(ReadLayered(fs, ConfigPaths(h, which)), section, key)
      == (if Defines(fs, TargetPath(h, which), section, key)
          then Some(fs[TargetPath(h, which)][section][key]) else None)
  {
    LayeredLookup(fs, ConfigPaths(h, which), section, key);
  }

  // ---------------------------------------------------------------------
  // Writing

  /** The contents of a file, empty when it does not exist. */
  function FileOf(fs: Files, path: string): Ini {
    if path in fs then fs[path] else map[]
  }

  /** update_config: sets section.key = value in the selected file, creating
      the file and the section when absent. All is refused with a
      ValueError and nothing is written. */
  function UpdateConfig(h: Host, fs: Files, section: string, key: string, value: string,
                        which: ConfigFile): (r: Result<Files, string>)
    ensures which == All <==> r.Err?
    ensures r.Ok? ==> (
      var path := TargetPath(h, which);
      && r.value.Keys == fs.Keys + {path}
      && Defines(r.value, path, section, key)
      && r.value[path][section][key] == value
      && (forall p :: p in fs && p != path ==> r.value[p] == fs[p])
      && (forall s :: s in FileOf(fs, path) && s != section ==>
            s in r.value[path] && r.value[path][s] == FileOf(fs, path)[s])
      && (forall k :: k in SectionOf(FileOf(fs, path), section) && k != key ==>
            k in r.value[path][section]
            && r.value[path][section][k] == SectionOf(FileOf(fs, path), section)[k])
      && r.value[path].Keys == FileOf(fs, path).Keys + {section}
      && r.value[path][section].Keys == SectionOf(FileOf(fs, path), section).Keys + {key})
  {
    if which == All then Err("invalid configfile: ConfigFile.ALL")
    else
      var path := TargetPath(h, which);
      var file := FileOf(fs, path);
      var sec := SectionOf(file, section);
      Ok(fs[path := file[section := sec[key := value]]])
  }

  // ---------------------------------------------------------------------
  // Boolean settings

  function ToLower(s: string): (r: string)
    ensures |r| == |s|
  {
    seq(|s|, i requires 0 <= i < |s| =>
      if 'A' <= s[i] <= 'Z' then (s[i] as int + 32) as char else s[i])
  }

  /** The words configparser reads as true and as false, after lower-casing. */
  const TrueWords: set<string> := {"1", "yes", "true", "on"}
  const FalseWords: set<string> := {"0", "no", "false", "off"}

  /** configparser's getboolean conversion: 1/yes/true/on and 0/no/false/off,
      in any letter case; anything else is a ValueError. */
  function ParseBoolean(v: string): (r: Result<bool, string>)
    ensures r == Ok(true) <==> ToLower(v) in TrueWords
    ensures r == Ok(false) <==> ToLower(v) in FalseWords
    ensures r.Err? <==> ToLower(v) !in TrueWords && ToLower(v) !in FalseWords
  {
    var l := ToLower(v);
    if l in TrueWords then Ok(true)
    else if l in FalseWords then Ok(false)
    else Err("Not a boolean: " + v)
  }

  /** getboolean(section, key, fallback=dflt): a missing key reads as the
      fallback, a present one by its word, and a present value that is no
      boolean word is an error. */
  function GetBoolean(ini: Ini, section: string, key: string, dflt: bool): (r: Result<bool, string>)
    ensures r == Ok(true) <==>
      (!Lookup(ini, section, key).Some? && dflt)
      || (Lookup(ini, section, key).Some? && ToLower(Lookup(ini, section, key).value) in TrueWords)
    ensures r == Ok(false) <==>
      (!Lookup(ini, section, key).Some? && !dflt)
      || (Lookup(ini, section, key).Some? && ToLower(Lookup(ini, section, key).value) in FalseWords)
    ensures r.Err? <==>
      Lookup(ini, section, key).Some?
      && ToLower(Lookup(ini, section, key).value) !in TrueWords
      && ToLower(Lookup(ini, section, key).value) !in FalseWords
  {
    match Lookup(ini, section, key)
    case None => Ok(dflt)
    case Some(v) => ParseBoolean(v)
  }

  /** use_colors: color.ui, true when unset. */
  function UseColors(ini: Ini): (r: Result<bool, string>)
    ensures Lookup(ini, "color", "ui").None? ==> r == Ok(true)
    ensures r == Ok(false) <==>
      Lookup(ini, "color", "ui").Some? && ToLower(Lookup(ini, "color", "ui").value) in FalseWords
  {
    GetBoolean(ini, "color", "ui", true)
  }
}

=== FILE: dispatch.dfy ===
/** The front-end router: what the parsed top-level arguments lead to, where
    `west help <name>` sends its request, and how the way a command ended is
    turned into an exit status, diagnostics and, after a self-update, the
    instruction to run west again with the same arguments.

    argparse is not modelled: its result is the TopArgs record, and only the
    decisions taken on it are. */
module Dispatch {
  import opened Util
  import Registry
  import Externals
  import Configuration
  import ZephyrBase

  /** errno.EIO. */
  const EIO: int := 5

  /** The top-level namespace produced by argparse: -h, -z, -v (a count),
      -V, the chosen command, and the positional of `help`. */
  datatype TopArgs = TopArgs(
    help: bool,
    zephyrBase: Option<string>,
    verbose: nat,
    version: bool,
    command: Option<string>,
    helpTarget: Option<string>)

  /** The handler the chosen subparser installs. */
  datatype Handler =
    | RunBuiltin(name: string)
    | RunExternal(spec: Externals.Spec)
    | RunHelp(target: Option<string>)

  /** Where parse_args leaves things. */
  datatype Parsed =
    /** -h: the help action prints the top-level help and exits 0. */
    | PrintedTopHelp
    /** A command name no subparser accepts: argparse exits 2. */
    | InvalidChoice(name: string)
    /** -V: version information, then exit 0. */
    | PrintedVersion
    /** No command: the top-level help on stderr, exit 1. */
    | NoHandler(zephyr: ZephyrBase.Resolution)
    /** A handler to run, ZEPHYR_BASE having been resolved first. */
    | Ready(handler: Handler, zephyr: ZephyrBase.Resolution)

  /** The names the subparsers accept: the built-ins (help included) and
      every external command that survived filtering. */
  function ChoiceNames(groups: seq<Registry.Group>, externals: Externals.Table): (names: set<string>)
    ensures Registry.HelpName in names
    ensures forall n :: n in names <==>
      n in Registry.BuiltinNames(groups) || n in Externals.NamesIn(Externals.AllSpecs(externals))
  {
    Registry.BuiltinNames(groups) + Externals.NamesIn(Externals.AllSpecs(externals))
  }

  /** The position of the first spec called name. */
  function FindSpec(specs: seq<Externals.Spec>, name: string): (r: Option<nat>)
    ensures r.Some? ==> r.value < |specs| && specs[r.value].name == name
    ensures r.Some? ==> forall j :: 0 <= j < r.value ==> specs[j].name != name
    ensures r.None? <==> name !in Externals.NamesIn(specs)
    decreases |specs|
  {
    if specs == [] then None
    else if specs[0].name == name then Some(0)
    else
      var r := FindSpec(specs[1..], name);
      assert name in Externals.NamesIn(specs) ==> name in Externals.NamesIn(specs[1..]) by {
        if name in Externals.NamesIn(specs) {
          var k :| 0 <= k < |specs| && specs[k].name == name;
          assert specs[1..][k - 1] == specs[k];
        }
      }
      assert name in Externals.NamesIn(specs[1..]) ==> name in Externals.NamesIn(specs) by {
        if name in Externals.NamesIn(specs[1..]) {
          var k :| 0 <= k < |specs| - 1 && specs[1..][k].name == name;
          assert specs[k + 1].name == name;
        }
      }
      if r.None? then None else Some(r.value + 1)
  }

  /** The subparser chosen for name: `help`, then a built-in, then the
      first external spec of that name. argparse keeps one parser per name,
      a later `add_parser` of the same name replacing the earlier one (or
      raising, in newer Pythons), and `help` is added last; this order agrees
      with it because every table `main` passes has been filtered, so its
      names are distinct and none is reserved. */
  function HandlerFor(name: string, groups: seq<Registry.Group>, externals: Externals.Table,
                      helpTarget: Option<string>): (h: Option<Handler>)
    ensures h.None? <==> name !in ChoiceNames(groups, externals)
    ensures h == Some(RunHelp(helpTarget)) <==> name == Registry.HelpName
    ensures h.Some? && h.value.RunBuiltin? ==>
      h.value.name == name && name != Registry.HelpName && Registry.Declares(groups, name)
    ensures h.Some? && h.value.RunExternal? ==>
      h.value.spec.name == name && !Registry.Declares(groups, name) && name != Registry.HelpName
    ensures h.Some? && h.value.RunExternal? ==>
      var all := Externals.AllSpecs(externals);
      && FindSpec(all, name).Some?
      && h.value.spec == all[FindSpec(all, name).value]
  {
    var all := Externals.AllSpecs(externals);
    if name == Registry.HelpName then Some(RunHelp(helpTarget))
    else if name in Registry.BuiltinNames(groups) then Some(RunBuiltin(name))
    else
      var i := FindSpec(all, name);
      if i.Some? then Some(RunExternal(all[i.value])) else None
  }

  /** parse_args: argparse handles -h and an unknown command name itself;
      then -V ends the run; then ZEPHYR_BASE is resolved, and only then is
      a missing command reported. */
  function ParseArgs(a: TopArgs, groups: seq<Registry.Group>, externals: Externals.Table,
                     env: ZephyrBase.Environment, config: Configuration.Ini,
                     abspath: string -> string): (p: Parsed)
    ensures a.help ==> p == PrintedTopHelp
    ensures p == PrintedTopHelp <==> a.help
    ensures p.InvalidChoice? <==>
      !a.help && a.command.Some? && a.command.value !in ChoiceNames(groups, externals)
    ensures p.InvalidChoice? ==> p.name == a.command.value
    ensures p.PrintedVersion? <==> !a.help && !p.InvalidChoice? && a.version
    ensures p.NoHandler? <==> !a.help && !a.version && a.command.None?
    ensures p.NoHandler? || p.Ready? ==>
      p.zephyr == ZephyrBase.SetZephyrBase(a.zephyrBase, env, config, abspath)
    ensures p.Ready? ==>
      a.command.Some? && HandlerFor(a.command.value, groups, externals, a.helpTarget) == Some(p.handler)
  {
    if a.help then PrintedTopHelp
    else if a.command.Some? && a.command.value !in ChoiceNames(groups, externals) then
      InvalidChoice(a.command.value)
    else if a.version then PrintedVersion
    else
      var zephyr := ZephyrBase.SetZephyrBase(a.zephyrBase, env, config, abspath);
      match a.command
      case None => NoHandler(zephyr)
      case Some(name) =>
        var h := HandlerFor(name, groups, externals, a.helpTarget);
        Ready(h.value, zephyr)
  }

  /** Every command that runs, runs with ZEPHYR_BASE already settled: a value
      was resolved and published, or the missing value was reported. */
  lemma ZephyrBaseSettledBeforeRun(a: TopArgs, groups: seq<Registry.Group>, externals: Externals.Table,
                                   env: ZephyrBase.Environment, config: Configuration.Ini,
                                   abspath: string -> string)
    ensures var p := ParseArgs(a, groups, externals, env, config, abspath);
      p.Ready? ==>
        (p.zephyr.value.Some? && ZephyrBase.ZephyrBaseVar in p.zephyr.env
         && p.zephyr.env[ZephyrBase.ZephyrBaseVar] == abspath(p.zephyr.value.value))
        || (p.zephyr.value.None? && ZephyrBase.NotFoundError in p.zephyr.diagnostics && p.zephyr.env == env)
  {
    var p := ParseArgs(a, groups, externals, env, config, abspath);
    if p.Ready? {
      var r := ZephyrBase.SetZephyrBase(a.zephyrBase, env, config, abspath);
      var d := ZephyrBase.Decide(a.zephyrBase, ZephyrBase.EnvGet(env, ZephyrBase.ZephyrBaseVar),
                                 Configuration.Lookup(config, "zephyr", "base-prefer"),
                                 Configuration.Lookup(config, "zephyr", "base"), abspath);
      assert r.diagnostics == d.2 && r.value == d.0;
    }
  }

  /** With the filtered table, a built-in name always reaches the built-in
      and an external name always reaches its one spec. */
  lemma FilteredNamesReachTheirCommand(helpOf: string -> Option<string>, t: Externals.Table,
                                       name: string, helpTarget: Option<string>)
    ensures var groups := Registry.WestGroups(helpOf);
      var f := Externals.FilterTable(t, Registry.BuiltinNames(groups), {}).table;
      var h := HandlerFor(name, groups, f, helpTarget);
      && (name in Registry.ProjectCommandNames || name in Registry.HiddenCommandNames ==>
            h == Some(RunBuiltin(name)))
      && (name in Externals.NamesIn(Externals.AllSpecs(f)) ==>
            h.Some? && h.value.RunExternal? && h.value.spec in Externals.AllSpecs(f))
  {
    var groups := Registry.WestGroups(helpOf);
    var builtins := Registry.BuiltinNames(groups);
    var f := Externals.FilterTable(t, builtins, {}).table;
    Registry.WestBuiltinNames(helpOf);
    if name in Registry.ProjectCommandNames || name in Registry.HiddenCommandNames {
      BuiltinReachesBuiltin(name, groups, f, helpTarget);
    }
    if name in Externals.NamesIn(Externals.AllSpecs(f)) {
      SurvivorIsNoBuiltin(t, builtins, name);
      ExternalReachesSpec(name, groups, f, helpTarget);
    }
  }

  lemma BuiltinReachesBuiltin(name: string, groups: seq<Registry.Group>, externals: Externals.Table,
                              helpTarget: Option<string>)
    requires name in Registry.BuiltinNames(groups) && name != Registry.HelpName
    ensures HandlerFor(name, groups, externals, helpTarget) == Some(RunBuiltin(name))
  {
  }

  lemma ExternalReachesSpec(name: string, groups: seq<Registry.Group>, externals: Externals.Table,
                            helpTarget: Option<string>)
    requires name in Externals.NamesIn(Externals.AllSpecs(externals))
    requires name !in Registry.BuiltinNames(groups)
    ensures var h := HandlerFor(name, groups, externals, helpTarget);
      h.Some? && h.value.RunExternal? && h.value.spec in Externals.AllSpecs(externals)
  {
    var all := Externals.AllSpecs(externals);
    var i := FindSpec(all, name);
    assert all[i.value] in all;
  }

  lemma SurvivorIsNoBuiltin(t: Externals.Table, builtins: set<string>, name: string)
    requires name in Externals.NamesIn(Externals.AllSpecs(Externals.FilterTable(t, builtins, {}).table))
    ensures name !in builtins
  {
    var all := Externals.AllSpecs(Externals.FilterTable(t, builtins, {}).table);
    Externals.FilterGuarantees(t, builtins);
    var k :| 0 <= k < |all| && all[k].name == name;
  }

  // ---------------------------------------------------------------------
  // west help <name>

  /** What `west help` prints. */
  datatype HelpShown =
    | TopLevelHelp
    | HelpCommandHelp
    | BuiltinCommandHelp(name: string)
    /** The spec's command is created and asked for its own help, as if run
        with the given arguments; argparse then exits. */
    | ExternalCommandHelp(spec: Externals.Spec, argv: seq<string>)

  /** help_command_handler. */
  function HelpRoute(target: Option<string>, groups: seq<Registry.Group>, externals: Externals.Table)
    : (h: HelpShown)
    ensures h == TopLevelHelp <==>
      !Truthy(target) || target.value !in ChoiceNames(groups, externals)
    ensures h == HelpCommandHelp <==> target == Some(Registry.HelpName)
    ensures h.BuiltinCommandHelp? <==>
      Truthy(target) && target.value != Registry.HelpName && Registry.Declares(groups, target.value)
    ensures h.BuiltinCommandHelp? ==> target == Some(h.name)
    ensures h.ExternalCommandHelp? ==>
      && target == Some(h.spec.name)
      && h.argv == [h.spec.name, "--help"]
      && h.spec.name !in Registry.BuiltinNames(groups)
      && FindSpec(Externals.AllSpecs(externals), h.spec.name).Some?
      && h.spec == Externals.AllSpecs(externals)[FindSpec(Externals.AllSpecs(externals), h.spec.name).value]
  {
    if !Truthy(target) then TopLevelHelp
    else
      var name := target.value;
      if name in Registry.BuiltinNames(groups) then
        if name == Registry.HelpName then HelpCommandHelp else BuiltinCommandHelp(name)
      else
        var all := Externals.AllSpecs(externals);
        var i := FindSpec(all, name);
        if i.Some? then ExternalCommandHelp(all[i.value], [name, "--help"]) else TopLevelHelp
  }

  /** `west help <name>` and `west <name> --help` reach the same command:
      a named built-in or external command gets its own help whenever
      `west <name>` would have run it. */
  lemma HelpAgreesWithDispatch(name: string, groups: seq<Registry.Group>, externals: Externals.Table,
                               helpTarget: Option<string>)
    requires name != ""
    ensures var h := HandlerFor(name, groups, externals, helpTarget);
      var shown := HelpRoute(Some(name), groups, externals);
      && (h.Some? && h.value.RunBuiltin? <==> shown == BuiltinCommandHelp(name))
      && (h.Some? && h.value.RunExternal? <==> shown.ExternalCommandHelp? && shown.spec == h.value.spec)
      && (h.None? <==> shown == TopLevelHelp)
  {
  }

  /** Project code runs only for an external command that was asked for:
      running it, or asking for its help. */
  predicate CallsFactory(h: Handler, groups: seq<Registry.Group>, externals: Externals.Table) {
    match h
    case RunExternal(_) => true
    case RunBuiltin(_) => false
    case RunHelp(target) => HelpRoute(target, groups, externals).ExternalCommandHelp?
  }

  lemma FactoryOnlyForExternalNames(a: TopArgs, groups: seq<Registry.Group>, externals: Externals.Table,
                                    env: ZephyrBase.Environment, config: Configuration.Ini,
                                    abspath: string -> string)
    ensures var p := ParseArgs(a, groups, externals, env, config, abspath);
      p.Ready? && CallsFactory(p.handler, groups, externals) ==>
        var name := if p.handler.RunHelp? then p.handler.target.value else a.command.value;
        name !in Registry.BuiltinNames(groups) && name in Externals.NamesIn(Externals.AllSpecs(externals))
  {
    var p := ParseArgs(a, groups, externals, env, config, abspath);
    if p.Ready? && CallsFactory(p.handler, groups, externals) {
      var all := Externals.AllSpecs(externals);
      if p.handler.RunHelp? {
        var shown := HelpRoute(p.handler.target, groups, externals);
        var i := FindSpec(all, shown.spec.name);
        assert all[i.value].name == shown.spec.name;
      } else {
        var i := FindSpec(all, a.command.value);
        assert all[i.value].name == a.command.value;
      }
    }
  }

  // ---------------------------------------------------------------------
  // The exception ladder of main

  /** How waiting for the re-invoked west ended. */
  datatype ChildWait = ChildExited(returncode: Option<int>) | WaitInterrupted

  /** How running the handler ended. */
  datatype Outcome =
    | Completed
    | Interrupted
    /** West updated itself and must run again. */
    | Restarted(wait: ChildWait)
    | SubprocessFailed(returncode: int, cmd: seq<string>)
    | ExtensionFailed(returncode: int, hint: Option<string>)
    | ContextRefused(returncode: int, reasons: seq<string>)
    | CommandFailed(returncode: int)

  /** What main reports on the way out. */
  datatype Report =
    | SubprocessError(returncode: int, cmd: seq<string>)
    | ImproperlyDefined(command: Option<string>, detail: string)
    | CannotRunHere(command: Option<string>, reasons: seq<string>)
    | StackTrace
    /** 'run as "west -v <argv>" for a stack trace' */
    | StackTraceHint(argv: seq<string>)

  /** The exit code, the reports, and the command line to run again. */
  datatype Exit = Exit(code: int, reports: seq<Report>, rerun: Option<seq<string>>)

  /** The suffix of the improperly-defined message: ": " and the hint when
      the hint is non-empty, nothing otherwise. */
  function HintSuffix(hint: Option<string>): (s: string)
    ensures s == "" <==> !Truthy(hint)
    ensures Truthy(hint) ==> s == ": " + hint.value
  {
    if Truthy(hint) then ": " + hint.value else ""
  }

  /** A stack trace when verbose, the hint otherwise. */
  function TraceOrHint(verbose: nat, argv: seq<string>): seq<Report> {
    if verbose > 0 then [StackTrace] else [StackTraceHint(argv)]
  }

  predicate ShowsTrace(o: Outcome) {
    o.SubprocessFailed? || o.ExtensionFailed?
  }

  predicate CarriesCode(o: Outcome) {
    o.SubprocessFailed? || o.ExtensionFailed? || o.ContextRefused? || o.CommandFailed?
  }

  function CarriedCode(o: Outcome): int
    requires CarriesCode(o)
  {
    match o
    case SubprocessFailed(rc, _) => rc
    case ExtensionFailed(rc, _) => rc
    case ContextRefused(rc, _) => rc
    case CommandFailed(rc) => rc
  }

  /** main's handling of the handler's outcome. argv0 is sys.argv[0]. */
  function Govern(o: Outcome, command: Option<string>, verbose: nat, argv0: string, argv: seq<string>)
    : (e: Exit)
    ensures e.rerun.Some? <==> o.Restarted?
    ensures e.rerun.Some? ==> e.rerun.value == [argv0] + argv
    ensures o == Restarted(WaitInterrupted) ==> e.code == 0
    ensures o == Restarted(ChildExited(None)) ==> e.code == EIO
    ensures o.Restarted? && o.wait.ChildExited? && o.wait.returncode.Some? ==>
      e.code == o.wait.returncode.value
    ensures o.Completed? || o.Interrupted? ==> e.code == 0
    ensures CarriesCode(o) ==> e.code == CarriedCode(o)
    ensures StackTrace in e.reports <==> ShowsTrace(o) && verbose > 0
    ensures StackTraceHint(argv) in e.reports <==> ShowsTrace(o) && verbose == 0
    ensures e.reports == [] <==> !(ShowsTrace(o) || o.ContextRefused?)
    ensures ShowsTrace(o) ==> |e.reports| == 2
    ensures o.SubprocessFailed? ==> e.reports[0] == SubprocessError(o.returncode, o.cmd)
    ensures o.ExtensionFailed? ==> e.reports[0] == ImproperlyDefined(command, HintSuffix(o.hint))
    ensures o.ContextRefused? ==> e.reports == [CannotRunHere(command, o.reasons)]
  {
    match o
    case Completed => Exit(0, [], None)
    case Interrupted => Exit(0, [], None)
    case Restarted(wait) =>
      var code := match wait
        case WaitInterrupted => 0
        case ChildExited(rc) => if rc.Some? then rc.value else EIO;
      Exit(code, [], Some([argv0] + argv))
    case SubprocessFailed(rc, cmd) =>
      Exit(rc, [SubprocessError(rc, cmd)] + TraceOrHint(verbose, argv), None)
    case ExtensionFailed(rc, hint) =>
      Exit(rc, [ImproperlyDefined(command, HintSuffix(hint))] + TraceOrHint(verbose, argv), None)
    case ContextRefused(rc, reasons) => Exit(rc, [CannotRunHere(command, reasons)], None)
    case CommandFailed(rc) => Exit(rc, [], None)
  }

  /** Verbosity changes only what is reported, never the exit code or the
      restart, and the trace and the hint never appear together. */
  lemma VerbosityOnlyChangesReports(o: Outcome, command: Option<string>, v1: nat, v2: nat,
                                    argv0: string, argv: seq<string>)
    ensures Govern(o, command, v1, argv0, argv).code == Govern(o, command, v2, argv0, argv).code
    ensures Govern(o, command, v1, argv0, argv).rerun == Govern(o, command, v2, argv0, argv).rerun
    ensures !(StackTrace in Govern(o, command, v1, argv0, argv).reports
              && StackTraceHint(argv) in Govern(o, command, v1, argv0, argv).reports)
  {
  }

  /** The value of args.command when main reports a failure. The `help`
      subparser's positional is also called `command`, so after
      `west help <name>` it holds the help target, not "help". */
  function ReportedCommand(p: Parsed, a: TopArgs): Option<string> {
    if p.Ready? && p.handler.RunHelp? then p.handler.target else a.command
  }

  /** When the whole run exits 0: after -h or -V, and after a handler that
      completed, was interrupted, or failed with status 0, or a restart
      whose child exited 0 or whose wait was interrupted. */
  predicate CleanExit(p: Parsed, o: Outcome) {
    || p.PrintedTopHelp? || p.PrintedVersion?
    || (p.Ready? && (|| o.Completed? || o.Interrupted?
                     || o == Restarted(WaitInterrupted) || o == Restarted(ChildExited(Some(0)))
                     || (CarriesCode(o) && CarriedCode(o) == 0)))
  }

  /** The exit code of the whole run, from where parse_args left things and,
      when a handler ran, how it ended. */
  function ExitOf(p: Parsed, o: Outcome, a: TopArgs, argv0: string, argv: seq<string>): (e: Exit)
    ensures e.code == 0 <==> CleanExit(p, o)
    ensures p.InvalidChoice? ==> e.code == 2
    ensures p.NoHandler? ==> e.code == 1
    ensures e.rerun.Some? <==> p.Ready? && o.Restarted?
    ensures e.reports != [] ==> p.Ready?
    ensures forall r :: r in e.reports && (r.ImproperlyDefined? || r.CannotRunHere?) ==>
      r.command == ReportedCommand(p, a)
    ensures p.Ready? ==> e == Govern(o, ReportedCommand(p, a), a.verbose, argv0, argv)
  {
    match p
    case PrintedTopHelp => Exit(0, [], None)
    case InvalidChoice(_) => Exit(2, [], None)
    case PrintedVersion => Exit(0, [], None)
    case NoHandler(_) => Exit(1, [], None)
    case Ready(_, _) => Govern(o, ReportedCommand(p, a), a.verbose, argv0, argv)
  }

  /** A failure reported after `west help <name>` names the help target, as
      args.command then holds it. */
  lemma HelpFailureNamesTarget(a: TopArgs, groups: seq<Registry.Group>, externals: Externals.Table,
                               env: ZephyrBase.Environment, config: Configuration.Ini,
                               abspath: string -> string, o: Outcome, argv0: string, argv: seq<string>)
    requires a.command == Some(Registry.HelpName)
    requires o.ExtensionFailed? || o.ContextRefused?
    ensures var p := ParseArgs(a, groups, externals, env, config, abspath);
      p.Ready? ==>
        var e := ExitOf(p, o, a, argv0, argv);
        e.reports != [] && e.reports[0].command == a.helpTarget
  {
  }

  /** A self-update re-runs west with exactly the arguments it was given and
      passes the child's exit status through. */
  lemma RestartIsTransparent(rc: int, command: Option<string>, verbose: nat, argv0: string,
                             argv: seq<string>)
    ensures var e := Govern(Restarted(ChildExited(Some(rc))), command, verbose, argv0, argv);
      e.rerun == Some([argv0] + argv) && e.rerun.value[1..] == argv && e.code == rc && e.reports == []
  {
    assert ([argv0] + argv)[1..] == argv;
  }
}

=== FILE: externals.dfy ===
/** The external-command loader: the table of commands that workspace
    projects contribute, filtered so that no contribution shadows a built-in
    name and no name is contributed twice. The first contribution of a name,
    in project order and then declaration order, wins; every dropped one is
    reported by a warning naming its project. */
module Externals {
  import opened Util
  import Configuration

  /** An external command spec. Its factory is inert until the command is
      invoked; see the Dispatch module for when it is called. */
  datatype Spec = Spec(name: string, help: Option<string>, project: string)

  /** One entry of the ordered mapping from project path to its specs. */
  datatype ProjectCommands = ProjectCommands(path: string, specs: seq<Spec>)

  type Table = seq<ProjectCommands>

  datatype Warning =
    | ShadowsBuiltin(project: string, name: string)
    | AlreadyDefined(project: string, name: string)

  /** Every spec of the table, project by project. */
  function AllSpecs(t: Table): seq<Spec> {
    if t == [] then [] else t[0].specs + AllSpecs(t[1..])
  }

  function NamesIn(s: seq<Spec>): set<string> {
    set k | 0 <= k < |s| :: s[k].name
  }

  /** a keeps some of b's elements, in b's order. */
  predicate IsSubsequence<T(==)>(a: seq<T>, b: seq<T>)
    decreases |b|
  {
    if a == [] then true
    else if b == [] then false
    else if a[0] == b[0] then IsSubsequence(a[1..], b[1..])
    else IsSubsequence(a, b[1..])
  }

  predicate DistinctNames(s: seq<Spec>) {
    forall k, l :: 0 <= k < l < |s| ==> s[k].name != s[l].name
  }

  // ---------------------------------------------------------------------
  // The warnings, as a reference walk over the specs

  /** The warning logged for one spec: its name is reserved, or it was
      already met; no warning for a spec that is kept. */
  function WarningFor(s: Spec, builtins: set<string>, seen: set<string>): seq<Warning> {
    if s.name in builtins then [ShadowsBuiltin(s.project, s.name)]
    else if s.name in seen then [AlreadyDefined(s.project, s.name)]
    else []
  }

  /** The warnings for specs in order, where `seen` holds every name met so
      far, whether its spec was kept or dropped. */
  function DropWarnings(specs: seq<Spec>, builtins: set<string>, seen: set<string>): seq<Warning>
    decreases |specs|
  {
    if specs == [] then []
    else WarningFor(specs[0], builtins, seen) + DropWarnings(specs[1..], builtins, seen + {specs[0].name})
  }

  /** Two name sets that agree outside the reserved names. */
  ghost predicate SameOutside(builtins: set<string>, a: set<string>, b: set<string>) {
    forall n :: n !in builtins ==> (n in a <==> n in b)
  }

  lemma NamesInCons(specs: seq<Spec>)
    requires specs != []
    ensures NamesIn(specs) == {specs[0].name} + NamesIn(specs[1..])
  {
    forall n | n in NamesIn(specs) ensures n in {specs[0].name} + NamesIn(specs[1..]) {
      var k :| 0 <= k < |specs| && specs[k].name == n;
      if k > 0 { assert specs[1..][k - 1].name == n; }
    }
    forall n | n in NamesIn(specs[1..]) ensures n in NamesIn(specs) {
      var k :| 0 <= k < |specs[1..]| && specs[1..][k].name == n;
      assert specs[k + 1].name == n;
    }
    assert specs[0].name in NamesIn(specs) by { assert specs[0].name == specs[0].name; }
  }

  /** Only the names outside the reserved set matter to the warnings. */
  lemma {:induction false} DropWarningsOutside(specs: seq<Spec>, builtins: set<string>,
                                               a: set<string>, b: set<string>)
    requires SameOutside(builtins, a, b)
    ensures DropWarnings(specs, builtins, a) == DropWarnings(specs, builtins, b)
    decreases |specs|
  {
    if specs != [] {
      assert SameOutside(builtins, a + {specs[0].name}, b + {specs[0].name});
      DropWarningsOutside(specs[1..], builtins, a + {specs[0].name}, b + {specs[0].name});
    }
  }

  lemma {:induction false} DropWarningsAppend(a: seq<Spec>, c: seq<Spec>, builtins: set<string>,
                                              seen: set<string>)
    ensures DropWarnings(a + c, builtins, seen) ==
      DropWarnings(a, builtins, seen) + DropWarnings(c, builtins, seen + NamesIn(a))
    decreases |a|
  {
    if a == [] {
      assert a + c == c;
      assert NamesIn(a) == {};
      assert seen + {} == seen;
    } else {
      assert (a + c)[0] == a[0];
      assert (a + c)[1..] == a[1..] + c;
      DropWarningsAppend(a[1..], c, builtins, seen + {a[0].name});
      NamesInCons(a);
      assert seen + {a[0].name} + NamesIn(a[1..]) == seen + NamesIn(a);
    }
  }

  // ---------------------------------------------------------------------
  // The filter, one project at a time, as get_external_commands runs it

  datatype FilteredSpecs = FilteredSpecs(kept: seq<Spec>, warnings: seq<Warning>, taken: set<string>)

  /** Filters one project's specs against the built-in names and the names
      already taken by earlier accepted specs. Each dropped spec is warned
      about, in order, with its own project and name: as shadowing a
      built-in when its name is reserved, as already defined otherwise. */
  function FilterSpecs(specs: seq<Spec>, builtins: set<string>, taken: set<string>): (r: FilteredSpecs)
    ensures |r.kept| + |r.warnings| == |specs|
    ensures IsSubsequence(r.kept, specs)
    ensures r.taken == taken + NamesIn(r.kept)
    ensures forall k :: 0 <= k < |r.kept| ==> r.kept[k].name !in builtins && r.kept[k].name !in taken
    ensures forall w :: w in r.warnings && w.ShadowsBuiltin? ==> w.name in builtins
    ensures r.warnings == DropWarnings(specs, builtins, taken)
    decreases |specs|
  {
    if specs == [] then FilteredSpecs([], [], taken)
    else
      var s := specs[0];
      if s.name in builtins then
        var rest := FilterSpecs(specs[1..], builtins, taken);
        assert SameOutside(builtins, taken, taken + {s.name});
        DropWarningsOutside(specs[1..], builtins, taken, taken + {s.name});
        FilteredSpecs(rest.kept, [ShadowsBuiltin(s.project, s.name)] + rest.warnings, rest.taken)
      else if s.name in taken then
        var rest := FilterSpecs(specs[1..], builtins, taken);
        assert taken + {s.name} == taken;
        FilteredSpecs(rest.kept, [AlreadyDefined(s.project, s.name)] + rest.warnings, rest.taken)
      else
        var rest := FilterSpecs(specs[1..], builtins, taken + {s.name});
        NamesInCons([s] + rest.kept);
        assert ([s] + rest.kept)[1..] == rest.kept;
        FilteredSpecs([s] + rest.kept, rest.warnings, rest.taken)
  }

  /** After a project, the taken names are, outside the reserved ones, the
      names taken before and every name the project contributed. */
  lemma {:induction false} FilterSpecsTaken(specs: seq<Spec>, builtins: set<string>, taken: set<string>)
    ensures SameOutside(builtins, FilterSpecs(specs, builtins, taken).taken, taken + NamesIn(specs))
    decreases |specs|
  {
    if specs == [] {
      assert NamesIn(specs) == {};
    } else {
      var s := specs[0];
      NamesInCons(specs);
      if s.name in builtins || s.name in taken {
        FilterSpecsTaken(specs[1..], builtins, taken);
      } else {
        FilterSpecsTaken(specs[1..], builtins, taken + {s.name});
      }
    }
  }

  datatype FilteredTable = FilteredTable(table: Table, warnings: seq<Warning>)

  /** Filters the whole table; project paths and their order are kept, each
      project's list is replaced by its filtered list, and the warnings are
      those of the reference walk over all specs in table order. */
  function FilterTable(t: Table, builtins: set<string>, taken: set<string>): (r: FilteredTable)
    ensures |r.table| == |t|
    ensures forall i :: 0 <= i < |t| ==> r.table[i].path == t[i].path
    ensures forall i :: 0 <= i < |t| ==> IsSubsequence(r.table[i].specs, t[i].specs)
    ensures |AllSpecs(r.table)| + |r.warnings| == |AllSpecs(t)|
    ensures r.warnings == DropWarnings(AllSpecs(t), builtins, taken)
    decreases |t|
  {
    if t == [] then FilteredTable([], [])
    else
      var first := FilterSpecs(t[0].specs, builtins, taken);
      var rest := FilterTable(t[1..], builtins, first.taken);
      var table := [ProjectCommands(t[0].path, first.kept)] + rest.table;
      TableStep(t, first.kept, rest.table);
      WarningsStep(t, builtins, taken);
      FilteredTable(table, first.warnings + rest.warnings)
  }

  /** One step of the table walk: putting the first project's filtered list
      in front of the filtered rest keeps paths, order and counts. */
  lemma TableStep(t: Table, kept: seq<Spec>, rest: Table)
    requires t != [] && |rest| == |t| - 1
    requires IsSubsequence(kept, t[0].specs)
    requires forall i :: 0 <= i < |rest| ==> rest[i].path == t[1..][i].path
    requires forall i :: 0 <= i < |rest| ==> IsSubsequence(rest[i].specs, t[1..][i].specs)
    ensures var table := [ProjectCommands(t[0].path, kept)] + rest;
      && |table| == |t|
      && (forall i :: 0 <= i < |t| ==> table[i].path == t[i].path)
      && (forall i :: 0 <= i < |t| ==> IsSubsequence(table[i].specs, t[i].specs))
      && AllSpecs(table) == kept + AllSpecs(rest)
      && AllSpecs(t) == t[0].specs + AllSpecs(t[1..])
  {
    var table := [ProjectCommands(t[0].path, kept)] + rest;
    assert table[1..] == rest;
    assert forall i :: 1 <= i < |t| ==> table[i] == rest[i - 1] && t[i] == t[1..][i - 1];
    AllSpecsCons(t);
    AllSpecsCons(table);
  }

  /** One step of the table walk: the first project's warnings, then the
      rest's warnings given the names the first project took, are the
      warnings of the whole flattened table. */
  lemma WarningsStep(t: Table, builtins: set<string>, taken: set<string>)
    requires t != []
    ensures var first := FilterSpecs(t[0].specs, builtins, taken);
      first.warnings + DropWarnings(AllSpecs(t[1..]), builtins, first.taken)
        == DropWarnings(AllSpecs(t), builtins, taken)
  {
    var first := FilterSpecs(t[0].specs, builtins, taken);
    FilterSpecsTaken(t[0].specs, builtins, taken);
    DropWarningsOutside(AllSpecs(t[1..]), builtins, first.taken, taken + NamesIn(t[0].specs));
    DropWarningsAppend(t[0].specs, AllSpecs(t[1..]), builtins, taken);
  }

  // ---------------------------------------------------------------------
  // Reference definition on the flattened table

  /** First-wins deduplication of a flat sequence against a set of banned
      names; every kept name is banned for the rest of the sequence. */
  function Dedup(s: seq<Spec>, banned: set<string>): seq<Spec>
    decreases |s|
  {
    if s == [] then []
    else if s[0].name in banned then Dedup(s[1..], banned)
    else [s[0]] + Dedup(s[1..], banned + {s[0].name})
  }

  lemma {:induction false} FilterSpecsIsDedup(specs: seq<Spec>, builtins: set<string>, taken: set<string>)
    ensures FilterSpecs(specs, builtins, taken).kept == Dedup(specs, builtins + taken)
    decreases |specs|
  {
    if specs != [] {
      var s := specs[0];
      if s.name in builtins || s.name in taken {
        FilterSpecsIsDedup(specs[1..], builtins, taken);
      } else {
        FilterSpecsIsDedup(specs[1..], builtins, taken + {s.name});
        assert builtins + (taken + {s.name}) == (builtins + taken) + {s.name};
      }
    }
  }

  lemma {:induction false} DedupAppend(a: seq<Spec>, b: seq<Spec>, banned: set<string>)
    ensures Dedup(a + b, banned) == Dedup(a, banned) + Dedup(b, banned + NamesIn(Dedup(a, banned)))
    decreases |a|
  {
    if a == [] {
      assert a + b == b;
      assert NamesIn([]) == {};
      assert banned + {} == banned;
    } else {
      var s := a[0];
      assert (a + b)[0] == s;
      assert (a + b)[1..] == a[1..] + b;
      if s.name in banned {
        DedupAppend(a[1..], b, banned);
      } else {
        DedupAppend(a[1..], b, banned + {s.name});
        var tail := Dedup(a[1..], banned + {s.name});
        assert NamesIn([s] + tail) == {s.name} + NamesIn(tail) by {
          forall n | n in NamesIn([s] + tail) ensures n in {s.name} + NamesIn(tail) {
            var k :| 0 <= k < |[s] + tail| && ([s] + tail)[k].name == n;
            if k > 0 { assert tail[k - 1].name == n; }
          }
          forall n | n in NamesIn(tail) ensures n in NamesIn([s] + tail) {
            var k :| 0 <= k < |tail| && tail[k].name == n;
            assert ([s] + tail)[k + 1].name == n;
          }
          assert ([s] + tail)[0].name == s.name;
        }
        assert banned + {s.name} + NamesIn(tail) == banned + NamesIn([s] + tail);
      }
    }
  }

  /** Filtering the table project by project is first-wins deduplication of
      all its specs, in project-then-declaration order. */
  lemma {:induction false} FilterTableIsDedup(t: Table, builtins: set<string>, taken: set<string>)
    ensures AllSpecs(FilterTable(t, builtins, taken).table) == Dedup(AllSpecs(t), builtins + taken)
    decreases |t|
  {
    if t != [] {
      var first := FilterSpecs(t[0].specs, builtins, taken);
      var rest := FilterTable(t[1..], builtins, first.taken);
      var table := FilterTable(t, builtins, taken).table;
      assert table[0].specs == first.kept;
      assert table[1..] == rest.table;
      FilterSpecsIsDedup(t[0].specs, builtins, taken);
      FilterTableIsDedup(t[1..], builtins, first.taken);
      DedupAppend(t[0].specs, AllSpecs(t[1..]), builtins + taken);
      assert builtins + first.taken == builtins + taken + NamesIn(first.kept);
    }
  }

  // ---------------------------------------------------------------------
  // What first-wins deduplication guarantees

  lemma {:induction false} DedupAvoidsBanned(s: seq<Spec>, banned: set<string>)
    ensures forall k :: 0 <= k < |Dedup(s, banned)| ==> Dedup(s, banned)[k].name !in banned
    decreases |s|
  {
    if s != [] {
      if s[0].name in banned {
        DedupAvoidsBanned(s[1..], banned);
      } else {
        DedupAvoidsBanned(s[1..], banned + {s[0].name});
      }
    }
  }

  lemma {:induction false} DedupDistinct(s: seq<Spec>, banned: set<string>)
    ensures DistinctNames(Dedup(s, banned))
    decreases |s|
  {
    if s != [] {
      if s[0].name in banned {
        DedupDistinct(s[1..], banned);
      } else {
        var tail := Dedup(s[1..], banned + {s[0].name});
        DedupDistinct(s[1..], banned + {s[0].name});
        DedupAvoidsBanned(s[1..], banned + {s[0].name});
        var r := [s[0]] + tail;
        forall k, l | 0 <= k < l < |r| ensures r[k].name != r[l].name {
          if k == 0 {
            assert r[l] == tail[l - 1];
          } else {
            assert r[k] == tail[k - 1] && r[l] == tail[l - 1];
          }
        }
      }
    }
  }

  lemma {:induction false} DedupSubsequence(s: seq<Spec>, banned: set<string>)
    ensures IsSubsequence(Dedup(s, banned), s)
    decreases |s|
  {
    if s != [] {
      if s[0].name in banned {
        DedupSubsequence(s[1..], banned);
        SubsequenceDropHead(Dedup(s[1..], banned), s);
      } else {
        DedupSubsequence(s[1..], banned + {s[0].name});
        var r := [s[0]] + Dedup(s[1..], banned + {s[0].name});
        assert r[1..] == Dedup(s[1..], banned + {s[0].name});
      }
    }
  }

  lemma {:induction false} SubsequenceDropHead<T>(a: seq<T>, b: seq<T>)
    requires b != []
    requires IsSubsequence(a, b[1..])
    ensures IsSubsequence(a, b)
    decreases |a| + |b|, 1
  {
    if a != [] && a[0] == b[0] {
      SubsequenceTail(a, b[1..]);
    }
  }

  lemma {:induction false} SubsequenceTail<T>(a: seq<T>, b: seq<T>)
    requires a != []
    requires IsSubsequence(a, b)
    ensures IsSubsequence(a[1..], b)
    decreases |a| + |b|, 0
  {
    if a[0] == b[0] {
      if a[1..] != [] {
        SubsequenceDropHead(a[1..], b);
      }
    } else {
      SubsequenceTail(a, b[1..]);
      if a[1..] != [] {
        SubsequenceDropHead(a[1..], b);
      }
    }
  }

  /** Every name outside the banned set survives, once. */
  lemma {:induction false} DedupCovers(s: seq<Spec>, banned: set<string>)
    ensures forall i :: 0 <= i < |s| && s[i].name !in banned ==> s[i].name in NamesIn(Dedup(s, banned))
    decreases |s|
  {
    if s != [] {
      var x := s[0];
      if x.name in banned {
        DedupCovers(s[1..], banned);
        forall i | 0 <= i < |s| && s[i].name !in banned
          ensures s[i].name in NamesIn(Dedup(s, banned))
        {
          assert s[i] == s[1..][i - 1];
        }
      } else {
        var tail := Dedup(s[1..], banned + {x.name});
        DedupCovers(s[1..], banned + {x.name});
        var r := [x] + tail;
        forall i | 0 <= i < |s| && s[i].name !in banned
          ensures s[i].name in NamesIn(r)
        {
          if s[i].name == x.name {
            assert r[0].name == x.name;
          } else {
            assert s[i] == s[1..][i - 1];
            var k :| 0 <= k < |tail| && tail[k].name == s[i].name;
            assert r[k + 1].name == s[i].name;
          }
        }
      }
    }
  }

  /** s[i] is the first element of s with its name. */
  ghost predicate FirstOfName(s: seq<Spec>, i: int) {
    0 <= i < |s| && forall j :: 0 <= j < i ==> s[j].name != s[i].name
  }

  /** The position in s of the k-th surviving spec, which is the first
      spec of s with its name. */
  lemma {:induction false} DedupFirstIndex(s: seq<Spec>, banned: set<string>, k: int) returns (i: int)
    requires 0 <= k < |Dedup(s, banned)|
    ensures FirstOfName(s, i) && s[i] == Dedup(s, banned)[k]
    decreases |s|
  {
    var x := s[0];
    var b' := if x.name in banned then banned else banned + {x.name};
    var tail := Dedup(s[1..], b');
    var r := Dedup(s, banned);
    assert x.name in banned ==> r == tail;
    assert x.name !in banned ==> r == [x] + tail;
    if x.name !in banned && k == 0 {
      i := 0;
    } else {
      var k' := if x.name in banned then k else k - 1;
      assert r[k] == tail[k'];
      var i' := DedupFirstIndex(s[1..], b', k');
      DedupAvoidsBanned(s[1..], b');
      assert tail[k'].name !in b';
      i := i' + 1;
      assert s[i] == s[1..][i'];
      forall j | 0 <= j < i ensures s[j].name != s[i].name {
        if j > 0 { assert s[j] == s[1..][j - 1]; }
      }
    }
  }

  /** x is the first spec of s with its name. */
  ghost predicate IsFirstOfName(s: seq<Spec>, x: Spec) {
    exists i :: FirstOfName(s, i) && s[i] == x
  }

  /** Every surviving spec is the first spec of the sequence with its name. */
  lemma DedupFirstWins(s: seq<Spec>, banned: set<string>)
    ensures forall k :: 0 <= k < |Dedup(s, banned)| ==> IsFirstOfName(s, Dedup(s, banned)[k])
  {
    var r := Dedup(s, banned);
    forall k | 0 <= k < |r| ensures IsFirstOfName(s, r[k]) {
      var i := DedupFirstIndex(s, banned, k);
    }
  }

  /** The filter's guarantees over the whole table: no surviving name is a
      built-in, surviving names are pairwise distinct across all projects,
      every non-built-in name contributed somewhere survives, and each
      survivor is the first contribution of its name in project-then-
      declaration order. */
  lemma FilterGuarantees(t: Table, builtins: set<string>)
    ensures var out := AllSpecs(FilterTable(t, builtins, {}).table);
      && (forall k :: 0 <= k < |out| ==> out[k].name !in builtins)
      && DistinctNames(out)
      && IsSubsequence(out, AllSpecs(t))
      && (forall i :: 0 <= i < |AllSpecs(t)| && AllSpecs(t)[i].name !in builtins ==>
            AllSpecs(t)[i].name in NamesIn(out))
      && (forall k :: 0 <= k < |out| ==> IsFirstOfName(AllSpecs(t), out[k]))
  {
    FilterTableIsDedup(t, builtins, {});
    assert builtins + {} == builtins;
    DedupAvoidsBanned(AllSpecs(t), builtins);
    DedupDistinct(AllSpecs(t), builtins);
    DedupSubsequence(AllSpecs(t), builtins);
    DedupCovers(AllSpecs(t), builtins);
    DedupFirstWins(AllSpecs(t), builtins);
  }

  // ---------------------------------------------------------------------
  // Loading

  /** What project discovery produced: the table, or one of the two errors
      main() tolerates while the workspace is not set up yet. */
  datatype Discovery = Discovered(table: Table) | MalformedConfig | ManifestNotFound

  /** commands.allow_external as the source reads it: with a plain get, so
      the setting is a string and only the empty string switches external
      commands off; "false", "no" and "0" are non-empty and keep them on. */
  function AllowExternalAsWritten(setting: Option<string>): (allowed: bool)
    ensures !allowed <==> setting == Some("")
  {
    setting.None? || setting.value != ""
  }

  /** commands.allow_external read as a boolean with a true default: off
      exactly for a false word, on when unset or a true word, an error for
      any other value. */
  function AllowExternal(setting: Option<string>): (r: Result<bool, string>)
    ensures r == Ok(true) <==>
      setting.None? || Configuration.ToLower(setting.value) in Configuration.TrueWords
    ensures r == Ok(false) <==>
      setting.Some? && Configuration.ToLower(setting.value) in Configuration.FalseWords
    ensures r.Err? <==>
      && setting.Some?
      && Configuration.ToLower(setting.value) !in Configuration.TrueWords
      && Configuration.ToLower(setting.value) !in Configuration.FalseWords
  {
    match setting
    case None => Ok(true)
    case Some(v) => Configuration.ParseBoolean(v)
  }

  /** Writing "false" does not switch external commands off as written; the
      boolean reading does. */
  lemma AllowExternalFalseIgnored()
    ensures AllowExternalAsWritten(Some("false"))
    ensures AllowExternal(Some("false")) == Ok(false)
  {
    assert Configuration.ToLower("false") == "false";
  }

  /** What every loaded table guarantees: no survivor takes a reserved name
      and no name survives twice. */
  ghost predicate Sound(r: FilteredTable, builtins: set<string>) {
    && (forall k :: 0 <= k < |AllSpecs(r.table)| ==> AllSpecs(r.table)[k].name !in builtins)
    && DistinctNames(AllSpecs(r.table))
  }

  /** The loaded table is complete for a discovered table: every name that is
      not reserved survives, and every dropped spec is warned about. */
  ghost predicate Complete(r: FilteredTable, t: Table, builtins: set<string>) {
    && (forall i :: 0 <= i < |AllSpecs(t)| && AllSpecs(t)[i].name !in builtins ==>
          AllSpecs(t)[i].name in NamesIn(AllSpecs(r.table)))
    && r.warnings == DropWarnings(AllSpecs(t), builtins, {})
  }

  lemma FilterSoundComplete(t: Table, builtins: set<string>)
    ensures Sound(FilterTable(t, builtins, {}), builtins)
    ensures Complete(FilterTable(t, builtins, {}), t, builtins)
  {
    FilterGuarantees(t, builtins);
  }

  /** get_external_commands as written, with main()'s tolerance of the
      discovery errors: only an empty setting yields no table; a discovery
      error yields an empty one; whatever is loaded is sound, and a
      discovered table is loaded completely whenever the setting is not
      empty, "false" included. */
  function LoadExternalsAsWritten(setting: Option<string>, discovery: Discovery,
                                  builtins: set<string>): (r: FilteredTable)
    ensures setting == Some("") ==> r == FilteredTable([], [])
    ensures !discovery.Discovered? ==> r.table == []
    ensures Sound(r, builtins)
    ensures setting != Some("") && discovery.Discovered? ==> Complete(r, discovery.table, builtins)
  {
    if !AllowExternalAsWritten(setting) then FilteredTable([], [])
    else match discovery
      case Discovered(t) => FilterSoundComplete(t, builtins); FilterTable(t, builtins, {})
      case _ => FilteredTable([], [])
  }

  /** The loader with commands.allow_external read as a boolean: a false word
      yields no table, a value that is no boolean word is an error (which
      main() does not catch), whatever is loaded is sound, and a discovered
      table is loaded completely when the setting is unset or a true word. */
  function LoadExternals(setting: Option<string>, discovery: Discovery,
                         builtins: set<string>): (r: Result<FilteredTable, string>)
    ensures r.Err? <==>
      && setting.Some?
      && Configuration.ToLower(setting.value) !in Configuration.TrueWords
      && Configuration.ToLower(setting.value) !in Configuration.FalseWords
    ensures setting.Some? && Configuration.ToLower(setting.value) in Configuration.FalseWords ==>
      r == Ok(FilteredTable([], []))
    ensures r.Ok? && !discovery.Discovered? ==> r.value.table == []
    ensures r.Ok? ==> Sound(r.value, builtins)
    ensures r.Ok? && discovery.Discovered? && r.value != FilteredTable([], []) ==>
      Complete(r.value, discovery.table, builtins)
    ensures ((setting.None? || Configuration.ToLower(setting.value) in Configuration.TrueWords)
             && discovery.Discovered?) ==>
      r.Ok? && Complete(r.value, discovery.table, builtins)
  {
    match AllowExternal(setting)
    case Err(e) => Err(e)
    case Ok(allowed) =>
      if !allowed then Ok(FilteredTable([], []))
      else match discovery
        case Discovered(t) => FilterSoundComplete(t, builtins); Ok(FilterTable(t, builtins, {}))
        case _ => Ok(FilteredTable([], []))
  }

  // ---------------------------------------------------------------------
  // Filtering twice

  /** A project list whose names are distinct and neither reserved nor
      taken is kept whole, without warnings. */
  lemma {:induction false} FilterSpecsKeepsFresh(specs: seq<Spec>, builtins: set<string>, taken: set<string>)
    requires DistinctNames(specs)
    requires forall k :: 0 <= k < |specs| ==> specs[k].name !in builtins && specs[k].name !in taken
    ensures FilterSpecs(specs, builtins, taken).kept == specs
    decreases |specs|
  {
    if specs != [] {
      var s := specs[0];
      var tail := specs[1..];
      assert forall k :: 0 <= k < |tail| ==> tail[k] == specs[k + 1];
      FilterSpecsKeepsFresh(tail, builtins, taken + {s.name});
      assert [s] + tail == specs;
    }
  }

  lemma {:induction false} AllSpecsCons(t: Table)
    requires t != []
    ensures AllSpecs(t) == t[0].specs + AllSpecs(t[1..])
  {
  }

  /** Distinct names across a concatenation: each part is distinct, and no
      name of the second part occurs in the first. */
  lemma DistinctSplit(a: seq<Spec>, c: seq<Spec>)
    requires DistinctNames(a + c)
    ensures DistinctNames(a) && DistinctNames(c)
    ensures forall k :: 0 <= k < |c| ==> c[k].name !in NamesIn(a)
  {
    var all := a + c;
    assert forall k :: 0 <= k < |a| ==> a[k] == all[k];
    assert forall k :: 0 <= k < |c| ==> c[k] == all[|a| + k];
  }

  /** Fresh, distinct names across a table split into its first project
      and the rest, the rest being fresh also against the first's names. */
  lemma FreshSplit(t: Table, builtins: set<string>, taken: set<string>)
    requires t != []
    requires DistinctNames(AllSpecs(t))
    requires forall k :: 0 <= k < |AllSpecs(t)| ==>
      AllSpecs(t)[k].name !in builtins && AllSpecs(t)[k].name !in taken
    ensures DistinctNames(t[0].specs)
    ensures forall k :: 0 <= k < |t[0].specs| ==>
      t[0].specs[k].name !in builtins && t[0].specs[k].name !in taken
    ensures DistinctNames(AllSpecs(t[1..]))
    ensures forall k :: 0 <= k < |AllSpecs(t[1..])| ==>
      AllSpecs(t[1..])[k].name !in builtins && AllSpecs(t[1..])[k].name !in taken + NamesIn(t[0].specs)
  {
    AllSpecsCons(t);
    FreshConcat(t[0].specs, AllSpecs(t[1..]), builtins, taken);
  }

  /** Fresh, distinct names across a concatenation: each part keeps them,
      and the second part is fresh also against the first's names. */
  lemma FreshConcat(a: seq<Spec>, c: seq<Spec>, builtins: set<string>, taken: set<string>)
    requires DistinctNames(a + c)
    requires forall k :: 0 <= k < |a + c| ==> (a + c)[k].name !in builtins && (a + c)[k].name !in taken
    ensures DistinctNames(a) && DistinctNames(c)
    ensures forall k :: 0 <= k < |a| ==> a[k].name !in builtins && a[k].name !in taken
    ensures forall k :: 0 <= k < |c| ==> c[k].name !in builtins && c[k].name !in taken + NamesIn(a)
  {
    DistinctSplit(a, c);
    var all := a + c;
    assert forall k :: 0 <= k < |a| ==> a[k] == all[k];
    assert forall k :: 0 <= k < |c| ==> c[k] == all[|a| + k];
  }

  /** A table whose names are distinct and neither reserved nor taken comes
      out of the filter unchanged. */
  lemma {:induction false} FilterTableKeepsFresh(t: Table, builtins: set<string>, taken: set<string>)
    requires DistinctNames(AllSpecs(t))
    requires forall k :: 0 <= k < |AllSpecs(t)| ==>
      AllSpecs(t)[k].name !in builtins && AllSpecs(t)[k].name !in taken
    ensures FilterTable(t, builtins, taken).table == t
    decreases |t|
  {
    if t != [] {
      FreshSplit(t, builtins, taken);
      FilterSpecsKeepsFresh(t[0].specs, builtins, taken);
      var first := FilterSpecs(t[0].specs, builtins, taken);
      FilterTableKeepsFresh(t[1..], builtins, first.taken);
      assert FilterTable(t, builtins, taken).table
        == [ProjectCommands(t[0].path, t[0].specs)] + t[1..];
      assert t == [t[0]] + t[1..];
    }
  }

  /** Filtering is idempotent: filtering the filtered table again changes
      nothing. */
  lemma FilterIdempotent(t: Table, builtins: set<string>)
    ensures var once := FilterTable(t, builtins, {}).table;
      FilterTable(once, builtins, {}).table == once
  {
    var once := FilterTable(t, builtins, {}).table;
    FilterGuarantees(t, builtins);
    FilterTableKeepsFresh(once, builtins, {});
  }

  /** Two projects contributing a command of the same name: only the first
      survives and the second is reported. */
  lemma FirstProjectWins()
    ensures var t := [ProjectCommands("a", [Spec("hello", None, "pa")]),
                      ProjectCommands("b", [Spec("hello", None, "pb")])];
      FilterTable(t, {"help"}, {}) ==
        FilteredTable([ProjectCommands("a", [Spec("hello", None, "pa")]), ProjectCommands("b", [])],
                      [AlreadyDefined("pb", "hello")])
  {
    var t := [ProjectCommands("a", [Spec("hello", None, "pa")]),
              ProjectCommands("b", [Spec("hello", None, "pb")])];
    var kept := [Spec("hello", None, "pa")];
    assert t[1..][1..] == [];
    assert kept[0].name == "hello";
    assert NamesIn(kept) == {"hello"};
    var first := FilterSpecs(t[0].specs, {"help"}, {});
    assert first == FilteredSpecs(kept, [], {"hello"});
    var second := FilterSpecs(t[1].specs, {"help"}, {"hello"});
    assert second == FilteredSpecs([], [AlreadyDefined("pb", "hello")], {"hello"});
  }
}

=== FILE: helpformat.dfy ===
/** The top-level help formatter: the width clamp, the help offset, the
    "thing + help" two-mode layout, the option synopsis recorded as options
    are declared, and the grouped top-level help assembled from them.

    textwrap.wrap is modelled as a greedy word wrap: every line but the
    first of a paragraph starts a new word, a line takes words while the
    space-joined words still fit, and a word longer than a whole line sits on
    its own line. */
module HelpFormat {
  import opened Util
  import Registry
  import Externals

  function Min(a: int, b: int): int { if a <= b then a else b }
  function Max(a: int, b: int): int { if a >= b then a else b }

  /** The widths the top-level help is ever formatted at. */
  type Width = w: int | 30 <= w <= 75 witness 30

  /** At most 75 columns; COLUMNS - 2 on narrower terminals, but never less
      than 30. */
  function HelpWidth(columns: int): (w: Width)
    ensures columns - 2 >= 75 ==> w == 75
    ensures 30 <= columns - 2 <= 75 ==> w == columns - 2
    ensures columns - 2 <= 30 ==> w == 30
  {
    Min(75, Max(columns - 2, 30))
  }

  /** The column at which help text starts. */
  function HelpOffset(width: int): (offset: int)
    ensures 10 <= offset <= 24
    ensures width >= 44 ==> offset == 24
    ensures width <= 30 ==> offset == 10
    ensures 30 <= width <= 44 ==> offset == width - 20
  {
    Min(Max(10, width - 20), 24)
  }

  // ---------------------------------------------------------------------
  // Greedy wrapping

  lemma {:induction false} JoinSnocLength(ws: seq<string>, w: string)
    requires ws != []
    ensures |JoinWith(ws + [w], " ")| == |JoinWith(ws, " ")| + 1 + |w|
    decreases |ws|
  {
    if |ws| == 1 {
      assert (ws + [w])[1..] == [w];
    } else {
      assert (ws + [w])[1..] == ws[1..] + [w];
      JoinSnocLength(ws[1..], w);
    }
  }

  /** How many of words, from the k-th on, still fit on a line whose first
      k words are `len` characters long once joined. */
  function FitFrom(words: seq<string>, avail: int, k: nat, len: int): (n: nat)
    requires 1 <= k <= |words|
    requires len == |JoinWith(words[..k], " ")|
    requires k > 1 ==> len <= avail
    ensures k <= n <= |words|
    ensures n > 1 ==> |JoinWith(words[..n], " ")| <= avail
    ensures n < |words| ==> |JoinWith(words[..n + 1], " ")| > avail
    decreases |words| - k
  {
    if k < |words| then
      assert words[..k + 1] == words[..k] + [words[k]];
      JoinSnocLength(words[..k], words[k]);
      if len + 1 + |words[k]| <= avail then FitFrom(words, avail, k + 1, len + 1 + |words[k]|)
      else k
    else k
  }

  /** The number of words the next line takes: at least one, as many as fit. */
  function FitCount(words: seq<string>, avail: int): (n: nat)
    requires words != []
    ensures 1 <= n <= |words|
    ensures n > 1 ==> |JoinWith(words[..n], " ")| <= avail
    ensures n < |words| ==> |JoinWith(words[..n + 1], " ")| > avail
  {
    assert words[..1] == [words[0]];
    FitFrom(words, avail, 1, |words[0]|)
  }

  /** A wrapped line holds one word, or holds several and fits. */
  predicate FitsLine(line: seq<string>, avail: int) {
    line != [] && (|line| == 1 || |JoinWith(line, " ")| <= avail)
  }

  /** The line would not fit with the next word added to it. */
  predicate FullBefore(line: seq<string>, next: string, avail: int) {
    |JoinWith(line + [next], " ")| > avail
  }

  /** Greedy wrap of words into lines of at most `avail` characters. The
      lines hold all the words in order; a line holds one word or fits; and
      no line could have taken the first word of the next one. */
  function Wrap(words: seq<string>, avail: int): (lines: seq<seq<string>>)
    ensures Concat(lines) == words
    ensures forall i :: 0 <= i < |lines| ==> FitsLine(lines[i], avail)
    ensures forall i :: 1 <= i < |lines| ==> lines[i] != [] && FullBefore(lines[i - 1], lines[i][0], avail)
    decreases |words|
  {
    if words == [] then []
    else
      var n := FitCount(words, avail);
      var rest := Wrap(words[n..], avail);
      WrapStep(words, n, rest, avail);
      [words[..n]] + rest
  }

  /** One step of the greedy wrap: a first line of n words that fits (or is
      a single word) and cannot take the next word, in front of a wrap of
      the remaining words, is a wrap of all the words. */
  lemma WrapStep(words: seq<string>, n: nat, rest: seq<seq<string>>, avail: int)
    requires 1 <= n <= |words|
    requires n > 1 ==> |JoinWith(words[..n], " ")| <= avail
    requires n < |words| ==> |JoinWith(words[..n + 1], " ")| > avail
    requires Concat(rest) == words[n..]
    requires forall i :: 0 <= i < |rest| ==> FitsLine(rest[i], avail)
    requires forall i :: 1 <= i < |rest| ==> rest[i] != [] && FullBefore(rest[i - 1], rest[i][0], avail)
    ensures var lines := [words[..n]] + rest;
      && Concat(lines) == words
      && (forall i :: 0 <= i < |lines| ==> FitsLine(lines[i], avail))
      && (forall i :: 1 <= i < |lines| ==> lines[i] != [] && FullBefore(lines[i - 1], lines[i][0], avail))
  {
    var lines := [words[..n]] + rest;
    assert lines[1..] == rest;
    assert words[..n] + words[n..] == words;
    assert FitsLine(lines[0], avail);
    forall i | 1 <= i < |lines| ensures FitsLine(lines[i], avail) {
      assert lines[i] == rest[i - 1];
    }
    forall i | 1 <= i < |lines| ensures lines[i] != [] && FullBefore(lines[i - 1], lines[i][0], avail) {
      if i == 1 {
        assert lines[1] == rest[0] && FitsLine(rest[0], avail);
        assert Concat(rest) == rest[0] + Concat(rest[1..]);
        assert rest[0][0] == words[n..][0] == words[n];
        assert words[..n] + [words[n]] == words[..n + 1];
      } else {
        assert lines[i - 1] == rest[i - 2] && lines[i] == rest[i - 1];
      }
    }
  }

  lemma {:induction false} ConcatMember<T>(xss: seq<seq<T>>, i: int, j: int)
    requires 0 <= i < |xss| && 0 <= j < |xss[i]|
    ensures xss[i][j] in Concat(xss)
    decreases |xss|
  {
    if i > 0 {
      assert xss[1..][i - 1] == xss[i];
      ConcatMember(xss[1..], i - 1, j);
    }
  }

  lemma {:induction false} WordsOfAllLines(lines: seq<string>, groups: seq<seq<string>>)
    requires |lines| == |groups|
    requires forall i :: 0 <= i < |lines| ==> Words(lines[i]) == groups[i]
    ensures WordsOfAll(lines) == Concat(groups)
    decreases |lines|
  {
    if lines != [] {
      WordsOfAllLines(lines[1..], groups[1..]);
    }
  }

  /** Each line of words behind the indent. */
  function Indented(indent: string, groups: seq<seq<string>>): (lines: seq<string>)
    ensures |lines| == |groups|
    ensures forall i :: 0 <= i < |groups| ==> lines[i] == indent + JoinWith(groups[i], " ")
  {
    seq(|groups|, i requires 0 <= i < |groups| => indent + JoinWith(groups[i], " "))
  }

  /** A line of words behind an indent splits back into those words. */
  lemma IndentedWords(indent: string, group: seq<string>)
    requires AllSpace(indent)
    requires forall j :: 0 <= j < |group| ==> IsWord(group[j])
    ensures Words(indent + JoinWith(group, " ")) == group
  {
    WordsDropLeadingSpace(indent, JoinWith(group, " "));
    SplitJoinRoundTrip(group);
  }

  /** The indented lines of a split of a word sequence carry exactly those
      words. */
  lemma {:induction false} IndentedKeepsWords(indent: string, words: seq<string>, groups: seq<seq<string>>)
    requires AllSpace(indent)
    requires forall j :: 0 <= j < |words| ==> IsWord(words[j])
    requires Concat(groups) == words
    ensures forall i :: 0 <= i < |groups| ==> Words(Indented(indent, groups)[i]) == groups[i]
    ensures WordsOfAll(Indented(indent, groups)) == words
  {
    var lines := Indented(indent, groups);
    forall i | 0 <= i < |groups| ensures Words(lines[i]) == groups[i] {
      forall j | 0 <= j < |groups[i]| ensures IsWord(groups[i][j]) {
        ConcatMember(groups, i, j);
      }
      IndentedWords(indent, groups[i]);
    }
    WordsOfAllLines(lines, groups);
  }

  /** textwrap.wrap(' '.join(help.split()), width, initial_indent=indent,
      subsequent_indent=indent) with an indent of HelpOffset(width) spaces:
      every line starts with the indent, the lines carry exactly the words of
      the help in order, there are none for blank help, and a line is wider
      than the width only when it holds a single over-long word. */
  function HelpLines(help: string, width: Width): (lines: seq<string>)
    ensures forall i :: 0 <= i < |lines| ==> StartsWith(lines[i], Spaces(HelpOffset(width)))
    ensures WordsOfAll(lines) == Words(help)
    ensures lines == [] <==> Words(help) == []
    ensures forall i :: 0 <= i < |lines| ==> |lines[i]| <= width || |Words(lines[i])| == 1
  {
    var offset := HelpOffset(width);
    var indent := Spaces(offset);
    var words := Words(Normalize(help));
    NormalizeKeepsWords(help);
    WordsAreWords(help);
    var groups := Wrap(words, width - offset);
    var lines := Indented(indent, groups);
    IndentedKeepsWords(indent, words, groups);
    assert groups == [] <==> words == [] by {
      if groups != [] {
        assert FitsLine(groups[0], width - offset);
        assert Concat(groups) == groups[0] + Concat(groups[1..]);
      }
    }
    assert forall i :: 0 <= i < |lines| ==> StartsWith(lines[i], indent) by {
      forall i | 0 <= i < |lines| ensures StartsWith(lines[i], indent) {
        assert lines[i][..offset] == indent;
      }
    }
    assert forall i :: 0 <= i < |lines| ==> |lines[i]| <= width || |Words(lines[i])| == 1 by {
      forall i | 0 <= i < |lines| ensures |lines[i]| <= width || |Words(lines[i])| == 1 {
        assert FitsLine(groups[i], width - offset);
      }
    }
    lines
  }

  // ---------------------------------------------------------------------
  // Thing + help layout

  /** format_thing_and_help as written: for a short thing the first wrapped
      line is indexed even when blank help produced none, an IndexError. */
  function FormatThingAndHelpAsWritten(thing: string, help: Option<string>, width: Width)
    : (r: Result<seq<string>, string>)
    ensures r.Err? <==>
      help.Some? && |thing| <= HelpOffset(width) - 1 && Words(help.value) == []
    ensures r.Ok? ==> r.value == FormatThingAndHelp(thing, help, width)
  {
    match help
    case None => Ok([thing])
    case Some(h) =>
      var lines := HelpLines(h, width);
      if |thing| > HelpOffset(width) - 1 then Ok([thing] + lines)
      else if lines == [] then Err("IndexError: list index out of range")
      else Ok([thing + lines[0][|thing|..]] + lines[1..])
  }

  /** Blank help next to a short thing is the failing input. */
  lemma BlankHelpFails()
    ensures FormatThingAndHelpAsWritten("  x:", Some(" "), 75).Err?
  {
    assert Words(" ") == [] by { WordsOfSpaces(" "); }
  }

  /** The layout with blank help treated like absent help: the thing alone.
      The first row starts with the thing; every further row starts at the
      help offset; a short thing shares its row with the first help line,
      whose text stays at the help offset and whose width is unchanged; a
      long thing takes a row of its own above all help lines. */
  function FormatThingAndHelp(thing: string, help: Option<string>, width: Width): (rows: seq<string>)
    ensures |rows| >= 1 && StartsWith(rows[0], thing)
    ensures forall i :: 1 <= i < |rows| ==> StartsWith(rows[i], Spaces(HelpOffset(width)))
    ensures help.None? ==> rows == [thing]
    ensures help.Some? && |thing| > HelpOffset(width) - 1 ==>
      rows == [thing] + HelpLines(help.value, width)
    ensures help.Some? && |thing| <= HelpOffset(width) - 1 ==>
      var lines := HelpLines(help.value, width);
      && (lines == [] ==> rows == [thing])
      && (lines != [] ==>
            && |rows| == |lines|
            && |rows[0]| == |lines[0]|
            && rows[0][|thing|] == ' '
            && rows[0][HelpOffset(width)..] == lines[0][HelpOffset(width)..]
            && rows[1..] == lines[1..])
  {
    match help
    case None => [thing]
    case Some(h) =>
      var lines := HelpLines(h, width);
      if |thing| > HelpOffset(width) - 1 || lines == [] then [thing] + lines
      else
        var offset := HelpOffset(width);
        assert StartsWith(lines[0], Spaces(offset));
        assert lines[0][|thing|] == Spaces(offset)[|thing|];
        var row := thing + lines[0][|thing|..];
        assert row[..|thing|] == thing;
        assert [row] + lines[1..] == [row] + lines[1..];
        assert forall i :: 1 <= i < |lines| ==> ([row] + lines[1..])[i] == lines[i];
        [row] + lines[1..]
  }

  /** No word is lost or duplicated by the layout: the words of all rows are
      the words of the thing followed by the words of the help. */
  lemma FormatKeepsWords(thing: string, help: Option<string>, width: Width)
    ensures WordsOfAll(FormatThingAndHelp(thing, help, width)) ==
      Words(thing) + (if help.Some? then Words(help.value) else [])
  {
    var rows := FormatThingAndHelp(thing, help, width);
    match help
    case None =>
      assert rows[1..] == [];
    case Some(h) =>
      var lines := HelpLines(h, width);
      var offset := HelpOffset(width);
      if |thing| > offset - 1 || lines == [] {
        assert rows[1..] == lines;
      } else {
        var line := lines[0];
        PackedRowWords(thing, line, offset);
        assert rows == [thing + line[|thing|..]] + lines[1..];
        assert lines == [line] + lines[1..];
        assert WordsOfAll(lines) == Words(line) + WordsOfAll(lines[1..]);
        assert WordsOfAll(rows) == Words(rows[0]) + WordsOfAll(rows[1..]);
      }
  }

  /** Overlaying a short thing on the indent of a help line keeps the words
      of both. */
  lemma PackedRowWords(thing: string, line: string, offset: int)
    requires |thing| < offset
    requires StartsWith(line, Spaces(offset))
    ensures Words(thing + line[|thing|..]) == Words(thing) + Words(line)
  {
    var k := |thing|;
    var rest := line[k + 1..];
    assert thing + line[k..] == thing + [' '] + rest by {
      assert line[k] == Spaces(offset)[k] == ' ';
      assert line[k..] == [' '] + rest;
    }
    WordsSplit(thing, ' ', rest);
    assert line == Spaces(k + 1) + rest by {
      assert line[..k + 1] == Spaces(offset)[..k + 1];
      assert Spaces(offset)[..k + 1] == Spaces(k + 1);
    }
    WordsDropLeadingSpace(Spaces(k + 1), rest);
  }

  // ---------------------------------------------------------------------
  // Option synopsis, recorded as options are declared

  /** The `action` keyword: absent, one of argparse's named actions, or a
      custom Action class such as WestHelpAction. */
  datatype Action = DefaultAction | NamedAction(name: string) | CustomAction

  datatype WestOptional = WestOptional(options: seq<string>, metavar: Option<string>, help: Option<string>)

  /** A metavar is derived only when none is given and the action stores a
      value. */
  predicate NeedsMetavar(metavar: Option<string>, action: Action) {
    metavar.None? && (action == DefaultAction || action == NamedAction("store"))
  }

  function LStripDashes(s: string): (r: string)
    ensures r == [] || r[0] != '-'
    ensures |r| <= |s| && r == s[|s| - |r|..]
    ensures forall i :: 0 <= i < |s| - |r| ==> s[i] == '-'
  {
    if s != [] && s[0] == '-' then LStripDashes(s[1..]) else s
  }

  /** One character of the metavar: a dash becomes an underscore, an ASCII
      lower-case letter its upper-case partner, anything else stays. */
  function MetavarChar(c: char): (d: char)
    ensures c == '-' <==> d == '_' && c != '_'
    ensures 'a' <= c <= 'z' ==> 'A' <= d <= 'Z' && d as int + 32 == c as int
    ensures c != '-' && !('a' <= c <= 'z') ==> d == c
    ensures d != '-' && !('a' <= d <= 'z')
  {
    if c == '-' then '_' else if 'a' <= c <= 'z' then (c as int - 32) as char else c
  }

  /** translate({ord('-'): '_'}).upper(), character by character. */
  function MetavarChars(s: string): (m: string)
    ensures |m| == |s|
    ensures forall i :: 0 <= i < |s| ==> m[i] == MetavarChar(s[i])
  {
    seq(|s|, i requires 0 <= i < |s| => MetavarChar(s[i]))
  }

  /** m is the metavar derived from option: option is a run of leading
      dashes followed by a part that does not start with a dash, and m is
      that part with each character mapped by MetavarChar. */
  predicate MetavarOf(option: string, m: string) {
    && |m| <= |option|
    && (forall i :: 0 <= i < |option| - |m| ==> option[i] == '-')
    && (|m| > 0 ==> option[|option| - |m|] != '-')
    && (forall i :: 0 <= i < |m| ==> m[i] == MetavarChar(option[|option| - |m| + i]))
  }

  /** arg.lstrip('-').translate({ord('-'): '_'}).upper(): the option's
      leading dashes are dropped, and every later character is mapped on its
      own, so that no dash and no lower-case letter is left. */
  function DefaultMetavar(option: string): (m: string)
    ensures forall i :: 0 <= i < |m| ==> m[i] != '-' && !('a' <= m[i] <= 'z')
  {
    MetavarChars(LStripDashes(option))
  }

  /** The derived metavar is exactly the per-character image of the option
      after its leading dashes. */
  lemma DefaultMetavarImage(option: string)
    ensures MetavarOf(option, DefaultMetavar(option))
  {
    var r := LStripDashes(option);
    assert DefaultMetavar(option) == MetavarChars(r);
    assert r == option[|option| - |r|..];
  }

  /** A derived metavar is its own metavar: deriving again changes nothing. */
  lemma MetavarFixed(option: string)
    ensures DefaultMetavar(DefaultMetavar(option)) == DefaultMetavar(option)
  {
    var m := DefaultMetavar(option);
    assert LStripDashes(m) == m by {
      assert m == [] || m[0] != '-';
    }
    MetavarCharsFixed(m);
  }

  /** A string without dashes and lower-case letters maps to itself. */
  lemma MetavarCharsFixed(m: string)
    requires forall i :: 0 <= i < |m| ==> m[i] != '-' && !('a' <= m[i] <= 'z')
    ensures MetavarChars(m) == m
  {
    var r := MetavarChars(m);
    forall i | 0 <= i < |m| ensures r[i] == m[i] {
      assert r[i] == MetavarChar(m[i]);
    }
  }

  /** arg.startswith('-'). */
  predicate IsOption(arg: string) {
    |arg| > 0 && arg[0] == '-'
  }

  /** The loop of add_argument: collects the leading arguments that start
      with '-', stopping at the first that does not, and while collecting
      sets the metavar from each option when one is needed. */
  function CollectOptions(args: seq<string>, need: bool, metavar: Option<string>)
    : (r: (seq<string>, Option<string>))
    ensures |r.0| <= |args|
    ensures forall i :: 0 <= i < |r.0| ==> r.0[i] == args[i] && IsOption(args[i])
    ensures |r.0| < |args| ==> !IsOption(args[|r.0|])
    ensures need && r.0 != [] ==> r.1 == Some(DefaultMetavar(args[|r.0| - 1]))
    ensures !need || r.0 == [] ==> r.1 == metavar
    decreases |args|
  {
    if args == [] || !IsOption(args[0]) then ([], metavar)
    else
      var rest := CollectOptions(args[1..], need, if need then Some(DefaultMetavar(args[0])) else metavar);
      CollectStep(args, rest.0);
      ([args[0]] + rest.0, rest.1)
  }

  /** One more leading option in front of the options collected from the
      rest of the arguments. */
  lemma CollectStep(args: seq<string>, rest: seq<string>)
    requires args != [] && IsOption(args[0])
    requires |rest| <= |args| - 1
    requires forall i :: 0 <= i < |rest| ==> rest[i] == args[1..][i] && IsOption(args[1..][i])
    requires |rest| < |args| - 1 ==> !IsOption(args[1..][|rest|])
    ensures var options := [args[0]] + rest;
      && (forall i :: 0 <= i < |options| ==> options[i] == args[i] && IsOption(args[i]))
      && (|options| < |args| ==> !IsOption(args[|options|]))
      && (rest != [] ==> args[|options| - 1] == args[1..][|rest| - 1])
  {
    var options := [args[0]] + rest;
    assert forall i :: 1 <= i < |options| ==> options[i] == rest[i - 1] && args[i] == args[1..][i - 1];
  }

  /** add_argument's record of one optional: its leading option strings, the
      explicit metavar or the one derived from the last option, and the help.
      A positional argument records no options. */
  function AddArgument(args: seq<string>, metavar: Option<string>, action: Action,
                       help: Option<string>): (o: WestOptional)
    ensures o.help == help
    ensures |o.options| <= |args|
    ensures forall i :: 0 <= i < |o.options| ==> o.options[i] == args[i] && IsOption(args[i])
    ensures |o.options| < |args| ==> !IsOption(args[|o.options|])
    ensures !NeedsMetavar(metavar, action) ==> o.metavar == metavar
    ensures NeedsMetavar(metavar, action) && o.options != [] ==>
      o.metavar == Some(DefaultMetavar(o.options[|o.options| - 1]))
    ensures NeedsMetavar(metavar, action) && o.options == [] ==> o.metavar.None?
  {
    var r := CollectOptions(args, NeedsMetavar(metavar, action), metavar);
    WestOptional(r.0, r.1, help)
  }

  /** Each option followed by a space and the metavar. */
  function WithMetavar(options: seq<string>, m: string): (items: seq<string>)
    ensures |items| == |options|
    ensures forall i :: 0 <= i < |options| ==> items[i] == options[i] + " " + m
  {
    seq(|options|, i requires 0 <= i < |options| => options[i] + " " + m)
  }

  /** A join starts with its first part and ends with its last. */
  lemma {:induction false} JoinEnds(parts: seq<string>, sep: string)
    requires parts != []
    ensures StartsWith(JoinWith(parts, sep), parts[0])
    ensures EndsWith(JoinWith(parts, sep), parts[|parts| - 1])
    decreases |parts|
  {
    if |parts| > 1 {
      var rest := JoinWith(parts[1..], sep);
      JoinEnds(parts[1..], sep);
      assert JoinWith(parts, sep) == parts[0] + sep + rest;
      assert (parts[0] + sep + rest)[..|parts[0]|] == parts[0];
      assert parts[1..][|parts[1..]| - 1] == parts[|parts| - 1];
    }
  }

  /** Two spaces, then the parts joined by ", ": it starts with the first
      part and ends with the last. */
  lemma ThingEnds(parts: seq<string>)
    ensures parts == [] ==> "  " + JoinWith(parts, ", ") == "  "
    ensures parts != [] ==> StartsWith("  " + JoinWith(parts, ", "), "  " + parts[0])
    ensures parts != [] ==> EndsWith("  " + JoinWith(parts, ", "), parts[|parts| - 1])
  {
    if parts != [] {
      JoinEnds(parts, ", ");
      PrefixedStarts("  ", JoinWith(parts, ", "), parts[0]);
      PrefixedEnds("  ", JoinWith(parts, ", "), parts[|parts| - 1]);
    }
  }

  lemma PrefixedStarts(p: string, s: string, first: string)
    requires StartsWith(s, first)
    ensures StartsWith(p + s, p + first)
  {
    assert (p + s)[..|p + first|] == p + s[..|first|];
  }

  lemma PrefixedEnds(p: string, s: string, last: string)
    requires EndsWith(s, last)
    ensures EndsWith(p + s, last)
  {
    assert (p + s)[|p + s| - |last|..] == s[|s| - |last|..];
  }

  /** The "thing" of an optional: two spaces, then the options joined by
      ", ", each followed by the metavar when there is one. */
  function OptionThing(o: WestOptional): (thing: string)
    ensures StartsWith(thing, "  ")
  {
    match o.metavar
    case Some(m) => "  " + JoinWith(WithMetavar(o.options, m), ", ")
    case None => "  " + JoinWith(o.options, ", ")
  }

  /** The synopsis starts with the first option and ends with the last,
      each followed by the metavar when there is one. */
  lemma OptionThingEnds(o: WestOptional)
    ensures o.options == [] ==> OptionThing(o) == "  "
    ensures o.options != [] && o.metavar.None? ==>
      StartsWith(OptionThing(o), "  " + o.options[0])
      && EndsWith(OptionThing(o), o.options[|o.options| - 1])
    ensures o.options != [] && o.metavar.Some? ==>
      StartsWith(OptionThing(o), "  " + o.options[0] + " " + o.metavar.value)
      && EndsWith(OptionThing(o), o.options[|o.options| - 1] + " " + o.metavar.value)
  {
    match o.metavar
    case Some(m) => ThingEnds(WithMetavar(o.options, m));
    case None => ThingEnds(o.options);
  }

  /** format_west_optional: the option's thing laid out with its help. */
  function FormatWestOptional(o: WestOptional, width: Width): (rows: seq<string>)
    ensures |rows| >= 1 && StartsWith(rows[0], OptionThing(o))
    ensures WordsOfAll(rows) == Words(OptionThing(o)) + (if o.help.Some? then Words(o.help.value) else [])
  {
    FormatKeepsWords(OptionThing(o), o.help, width);
    FormatThingAndHelp(OptionThing(o), o.help, width)
  }

  lemma ZephyrBaseStripped()
    ensures LStripDashes("--zephyr-base") == "zephyr-base"
  {
    var a, b, s := "--zephyr-base", "-zephyr-base", "zephyr-base";
    assert a[0] == '-' && a[1..] == b;
    assert b[0] == '-' && b[1..] == s;
    assert s[0] == 'z';
    assert LStripDashes(s) == s;
    assert LStripDashes(b) == s;
  }

  lemma ZephyrBaseUpper()
    ensures MetavarChars("zephyr-base") == "ZEPHYR_BASE"
  {
    var m := MetavarChars("zephyr-base");
    assert m == seq(11, i requires 0 <= i < 11 => MetavarChar("zephyr-base"[i]));
  }

  lemma ZephyrBaseMetavar()
    ensures DefaultMetavar("--zephyr-base") == "ZEPHYR_BASE"
  {
    ZephyrBaseStripped();
    ZephyrBaseUpper();
  }

  /** A two-option synopsis: each option followed by the metavar when there
      is one, the two joined by ", ". */
  lemma TwoOptionThing(a: string, b: string, metavar: Option<string>, help: Option<string>)
    ensures OptionThing(WestOptional([a, b], metavar, help)) ==
      if metavar.Some? then "  " + a + " " + metavar.value + ", " + b + " " + metavar.value
      else "  " + a + ", " + b
  {
    var options := [a, b];
    assert options[1..] == [b];
    if metavar.Some? {
      var m := metavar.value;
      var items := WithMetavar(options, m);
      assert items[0] == a + " " + m && items[1] == b + " " + m;
      assert items[1..] == [b + " " + m];
      assert JoinWith(items, ", ") == a + " " + m + ", " + (b + " " + m);
      assert OptionThing(WestOptional(options, metavar, help)) == "  " + JoinWith(items, ", ");
    } else {
      assert JoinWith(options, ", ") == a + ", " + b;
    }
  }

  /** Two leading options are both recorded; a needed metavar comes from
      the second. */
  lemma TwoOptionsRecorded(a: string, b: string, metavar: Option<string>, action: Action,
                           help: Option<string>)
    requires IsOption(a) && IsOption(b)
    ensures AddArgument([a, b], metavar, action, help) ==
      WestOptional([a, b], if NeedsMetavar(metavar, action) then Some(DefaultMetavar(b)) else metavar, help)
  {
    var o := AddArgument([a, b], metavar, action, help);
    assert |o.options| == 2;
    assert o.options == [a, b];
  }

  /** The --zephyr-base option records ZEPHYR_BASE as its metavar, so it is
      shown as "-z ZEPHYR_BASE, --zephyr-base ZEPHYR_BASE". */
  lemma ZephyrBaseSynopsis(help: Option<string>)
    ensures var o := AddArgument(["-z", "--zephyr-base"], None, DefaultAction, help);
      o.options == ["-z", "--zephyr-base"] && o.metavar == Some("ZEPHYR_BASE")
      && OptionThing(o) == "  " + "-z" + " " + "ZEPHYR_BASE" + ", " + "--zephyr-base" + " " + "ZEPHYR_BASE"
  {
    TwoOptionsRecorded("-z", "--zephyr-base", None, DefaultAction, help);
    ZephyrBaseMetavar();
    TwoOptionThing("-z", "--zephyr-base", Some("ZEPHYR_BASE"), help);
  }

  /** A flag whose action stores no value has no metavar: "-h, --help". */
  lemma HelpFlagSynopsis(help: Option<string>)
    ensures var o := AddArgument(["-h", "--help"], None, CustomAction, help);
      o.metavar.None? && OptionThing(o) == "  " + "-h" + ", " + "--help"
  {
    TwoOptionsRecorded("-h", "--help", None, CustomAction, help);
    TwoOptionThing("-h", "--help", None, help);
  }

  // ---------------------------------------------------------------------
  // Two sample layouts at the full width

  /** At width 75 the help offset is 24: a 10-character thing shares its
      row with the first help line. */
  lemma ShortThingIsPacked(thing: string, help: string)
    requires |thing| == 10 && Words(help) != []
    ensures var rows := FormatThingAndHelp(thing, Some(help), 75);
      |rows| == |HelpLines(help, 75)| && rows[0][10] == ' '
      && rows[0][24..] == HelpLines(help, 75)[0][24..]
  {
  }

  /** ...and a 30-character thing gets a row of its own, the help following
      on rows indented by 24 spaces. */
  lemma LongThingHasOwnRow(thing: string, help: string)
    requires |thing| == 30 && Words(help) != []
    ensures var rows := FormatThingAndHelp(thing, Some(help), 75);
      rows[0] == thing && |rows| >= 2 && StartsWith(rows[1], Spaces(24))
  {
  }

  // ---------------------------------------------------------------------
  // The grouped top-level help

  function CommandThing(name: string): string {
    "  " + name + ":"
  }

  function CommandRows(commands: seq<Registry.Command>, width: Width): seq<string>
    decreases |commands|
  {
    if commands == [] then []
    else (FormatThingAndHelp(CommandThing(commands[0].name), commands[0].help, width)
          + CommandRows(commands[1..], width))
  }

  /** A titled group's section: its title, its commands, a blank line. */
  function GroupSection(g: Registry.Group, width: Width): seq<string> {
    if g.title.None? then [] else [g.title.value + ":"] + CommandRows(g.commands, width) + [""]
  }

  /** One section per titled group; the hidden (untitled) group is skipped. */
  function GroupRows(groups: seq<Registry.Group>, width: Width): seq<string>
    decreases |groups|
  {
    if groups == [] then []
    else
      GroupSection(groups[0], width) + GroupRows(groups[1..], width)
  }

  function ProjectHeader(path: string): string {
    "commands from project at \"" + path + "\":"
  }

  function SpecRows(specs: seq<Externals.Spec>, width: Width): seq<string>
    decreases |specs|
  {
    if specs == [] then []
    else (FormatThingAndHelp(CommandThing(specs[0].name), specs[0].help, width)
          + SpecRows(specs[1..], width))
  }

  /** A project's section: its header, its commands, a blank line. */
  function ExternalSection(p: Externals.ProjectCommands, width: Width): seq<string> {
    if p.specs == [] then [] else [ProjectHeader(p.path)] + SpecRows(p.specs, width) + [""]
  }

  /** One section per project whose filtered list is not empty. */
  function ExternalRows(t: Externals.Table, width: Width): seq<string>
    decreases |t|
  {
    if t == [] then []
    else
      ExternalSection(t[0], width) + ExternalRows(t[1..], width)
  }

  function OptionalRows(optionals: seq<WestOptional>, width: Width): seq<string>
    decreases |optionals|
  {
    if optionals == [] then []
    else (FormatWestOptional(optionals[0], width) + OptionalRows(optionals[1..], width))
  }

  /** Everything format_help(top_level=True) prints, one element per print. */
  function HelpEntries(usage: string, description: string, epilog: string,
                       optionals: seq<WestOptional>, groups: seq<Registry.Group>,
                       externals: Externals.Table, width: Width): (entries: seq<string>)
    ensures |entries| >= 6
    ensures entries[0] == usage && entries[1] == description && entries[3] == "optional arguments:"
    ensures entries[|entries| - 1] == epilog
  {
    var opts := OptionalRows(optionals, width);
    var gr := GroupRows(groups, width);
    var xr := ExternalRows(t := externals, width := width);
    EntriesFrame(usage, description, epilog, opts, gr, xr);
    [usage, description, "", "optional arguments:"] + opts + [""] + gr + xr + [epilog]
  }

  lemma EntriesFrame(usage: string, description: string, epilog: string,
                     opts: seq<string>, gr: seq<string>, xr: seq<string>)
    ensures var e := [usage, description, "", "optional arguments:"] + opts + [""] + gr + xr + [epilog];
      && |e| >= 6
      && e[0] == usage && e[1] == description && e[3] == "optional arguments:"
      && e[|e| - 1] == epilog
  {
  }

  /** Each printed entry followed by its newline. */
  function Printed(entries: seq<string>): string
    decreases |entries|
  {
    if entries == [] then "" else entries[0] + "\n" + Printed(entries[1..])
  }

  /** str.rstrip(): the longest prefix not ending in whitespace, the rest
      being all whitespace. */
  function RStrip(s: string): (r: string)
    ensures |r| <= |s| && r == s[..|r|]
    ensures r == [] || !IsSpace(r[|r| - 1])
    ensures AllSpace(s[|r|..])
    decreases |s|
  {
    if s != [] && IsSpace(s[|s| - 1]) then
      var r := RStrip(s[..|s| - 1]);
      assert s[|r|..] == s[..|s| - 1][|r|..] + [s[|s| - 1]];
      r
    else s
  }

  /** The top-level help text at the terminal's column count: the printed
      entries, each on its own line, at the clamped width, with the
      trailing whitespace removed and nothing else. */
  function FormatHelp(usage: string, description: string, epilog: string,
                      optionals: seq<WestOptional>, groups: seq<Registry.Group>,
                      externals: Externals.Table, columns: int): (text: string)
    ensures var full := PrintedHelp(usage, description, epilog, optionals, groups, externals, columns);
      && StartsWith(full, text)
      && AllSpace(full[|text|..])
      && (text == [] || !IsSpace(text[|text| - 1]))
  {
    RStrip(PrintedHelp(usage, description, epilog, optionals, groups, externals, columns))
  }

  /** The entries of the top-level help, each printed on its own line at
      the clamped width, before any stripping. */
  function PrintedHelp(usage: string, description: string, epilog: string,
                       optionals: seq<WestOptional>, groups: seq<Registry.Group>,
                       externals: Externals.Table, columns: int): string
  {
    Printed(HelpEntries(usage, description, epilog, optionals, groups, externals, HelpWidth(columns)))
  }

  // ---------------------------------------------------------------------
  // What the top-level help lists

  predicate Lists(rows: seq<string>, thing: string) {
    exists k :: 0 <= k < |rows| && StartsWith(rows[k], thing)
  }

  lemma {:induction false} CommandRowsList(commands: seq<Registry.Command>, width: Width, j: int)
    requires 0 <= j < |commands|
    ensures Lists(CommandRows(commands, width), CommandThing(commands[j].name))
    decreases |commands|
  {
    var thing := CommandThing(commands[j].name);
    var first := FormatThingAndHelp(CommandThing(commands[0].name), commands[0].help, width);
    var rest := CommandRows(commands[1..], width);
    assert CommandRows(commands, width) == first + rest;
    if j == 0 {
      ListsHead(first, rest, thing);
    } else {
      assert commands[1..][j - 1] == commands[j];
      CommandRowsList(commands[1..], width, j - 1);
      ListsRight(first, rest, thing);
    }
  }

  lemma ListsLeft(a: seq<string>, b: seq<string>, thing: string)
    requires Lists(a, thing)
    ensures Lists(a + b, thing)
  {
    var k :| 0 <= k < |a| && StartsWith(a[k], thing);
    assert (a + b)[k] == a[k];
  }

  lemma ListsRight(a: seq<string>, b: seq<string>, thing: string)
    requires Lists(b, thing)
    ensures Lists(a + b, thing)
  {
    var k :| 0 <= k < |b| && StartsWith(b[k], thing);
    assert (a + b)[|a| + k] == b[k];
  }

  /** Every command of a titled group is listed; the hidden group adds no
      row at all. */
  lemma {:induction false} GroupRowsList(groups: seq<Registry.Group>, width: Width, i: int, j: int)
    requires 0 <= i < |groups| && groups[i].title.Some? && 0 <= j < |groups[i].commands|
    ensures Lists(GroupRows(groups, width), CommandThing(groups[i].commands[j].name))
    decreases |groups|
  {
    var thing := CommandThing(groups[i].commands[j].name);
    var section := GroupSection(groups[0], width);
    var rest := GroupRows(groups[1..], width);
    if i == 0 {
      var g := groups[0];
      var cr := CommandRows(g.commands, width);
      CommandRowsList(g.commands, width, j);
      ListsRight([g.title.value + ":"], cr, thing);
      ListsLeft([g.title.value + ":"] + cr, [""], thing);
      ListsLeft(section, rest, thing);
    } else {
      assert groups[1..][i - 1] == groups[i];
      GroupRowsList(groups[1..], width, i - 1, j);
      ListsRight(section, rest, thing);
    }
  }

  lemma HiddenGroupAddsNothing(g: Registry.Group, groups: seq<Registry.Group>, width: Width)
    requires g.title.None?
    ensures GroupRows([g] + groups, width) == GroupRows(groups, width)
  {
    assert ([g] + groups)[1..] == groups;
  }

  lemma {:induction false} SpecRowsList(specs: seq<Externals.Spec>, width: Width, j: int)
    requires 0 <= j < |specs|
    ensures Lists(SpecRows(specs, width), CommandThing(specs[j].name))
    decreases |specs|
  {
    var thing := CommandThing(specs[j].name);
    var first := FormatThingAndHelp(CommandThing(specs[0].name), specs[0].help, width);
    var rest := SpecRows(specs[1..], width);
    assert SpecRows(specs, width) == first + rest;
    if j == 0 {
      ListsHead(first, rest, thing);
    } else {
      assert specs[1..][j - 1] == specs[j];
      SpecRowsList(specs[1..], width, j - 1);
      ListsRight(first, rest, thing);
    }
  }

  /** Every spec of the table is listed under its project's header; a
      project whose filtered list is empty adds no row at all. */
  lemma {:induction false} ExternalRowsList(t: Externals.Table, width: Width, i: int, j: int)
    requires 0 <= i < |t| && 0 <= j < |t[i].specs|
    ensures Lists(ExternalRows(t, width), CommandThing(t[i].specs[j].name))
    ensures Lists(ExternalRows(t, width), ProjectHeader(t[i].path))
    decreases |t|
  {
    var thing := CommandThing(t[i].specs[j].name);
    var header := ProjectHeader(t[i].path);
    var section := ExternalSection(t[0], width);
    var rest := ExternalRows(t[1..], width);
    if i == 0 {
      var p := t[0];
      var sr := SpecRows(p.specs, width);
      SpecRowsList(p.specs, width, j);
      ListsRight([header], sr, thing);
      ListsLeft([header] + sr, [""], thing);
      ListsLeft(section, rest, thing);
      assert StartsWith(([header] + sr)[0], header);
      ListsHead([header] + sr, [""], header);
      ListsLeft(section, rest, header);
    } else {
      assert t[1..][i - 1] == t[i];
      ExternalRowsList(t[1..], width, i - 1, j);
      ListsRight(section, rest, thing);
      ListsRight(section, rest, header);
    }
  }

  /** The rows of the top-level help around the command sections. */
  lemma HelpEntriesShape(usage: string, description: string, epilog: string,
                         optionals: seq<WestOptional>, groups: seq<Registry.Group>,
                         externals: Externals.Table, width: Width, thing: string)
    requires Lists(GroupRows(groups, width), thing) || Lists(ExternalRows(externals, width), thing)
    ensures Lists(HelpEntries(usage, description, epilog, optionals, groups, externals, width), thing)
  {
    var head := [usage, description, "", "optional arguments:"] + OptionalRows(optionals, width) + [""];
    var g := GroupRows(groups, width);
    var x := ExternalRows(externals, width);
    if Lists(g, thing) {
      ListsRight(head, g, thing);
      ListsLeft(head + g, x, thing);
    } else {
      ListsRight(head + g, x, thing);
    }
    ListsLeft(head + g + x, [epilog], thing);
    assert HelpEntries(usage, description, epilog, optionals, groups, externals, width)
      == head + g + x + [epilog];
  }

  /** The top-level help lists every command of every titled group... */
  lemma HelpListsBuiltins(usage: string, description: string, epilog: string,
                          optionals: seq<WestOptional>, groups: seq<Registry.Group>,
                          externals: Externals.Table, width: Width, i: int, j: int)
    requires 0 <= i < |groups| && groups[i].title.Some? && 0 <= j < |groups[i].commands|
    ensures Lists(HelpEntries(usage, description, epilog, optionals, groups, externals, width),
                  CommandThing(groups[i].commands[j].name))
  {
    GroupRowsList(groups, width, i, j);
    HelpEntriesShape(usage, description, epilog, optionals, groups, externals, width,
                     CommandThing(groups[i].commands[j].name));
  }

  /** ...and every external command of the table, under its project's
      header. */
  lemma HelpListsExternals(usage: string, description: string, epilog: string,
                           optionals: seq<WestOptional>, groups: seq<Registry.Group>,
                           externals: Externals.Table, width: Width, i: int, j: int)
    requires 0 <= i < |externals| && 0 <= j < |externals[i].specs|
    ensures var entries := HelpEntries(usage, description, epilog, optionals, groups, externals, width);
      && Lists(entries, CommandThing(externals[i].specs[j].name))
      && Lists(entries, ProjectHeader(externals[i].path))
  {
    ExternalRowsList(externals, width, i, j);
    HelpEntriesShape(usage, description, epilog, optionals, groups, externals, width,
                     CommandThing(externals[i].specs[j].name));
    HelpEntriesShape(usage, description, epilog, optionals, groups, externals, width,
                     ProjectHeader(externals[i].path));
  }

  lemma EmptyProjectAddsNothing(p: Externals.ProjectCommands, t: Externals.Table, width: Width)
    requires p.specs == []
    ensures ExternalRows([p] + t, width) == ExternalRows(t, width)
  {
    assert ([p] + t)[1..] == t;
  }

  /** Printing one more entry appends it and its newline. */
  lemma {:induction false} PrintedSnoc(entries: seq<string>, e: string)
    ensures Printed(entries + [e]) == Printed(entries) + e + "\n"
    decreases |entries|
  {
    if entries != [] {
      assert (entries + [e])[1..] == entries[1..] + [e];
      PrintedSnoc(entries[1..], e);
    }
  }

  /** The help text ends with the epilog, verbatim, whenever the epilog
      does not itself end in whitespace: only the final newline is
      stripped. */
  lemma HelpEndsWithEpilog(usage: string, description: string, epilog: string,
                           optionals: seq<WestOptional>, groups: seq<Registry.Group>,
                           externals: Externals.Table, columns: int)
    requires epilog != [] && !IsSpace(epilog[|epilog| - 1])
    ensures var entries := HelpEntries(usage, description, epilog, optionals, groups,
                                       externals, HelpWidth(columns));
      FormatHelp(usage, description, epilog, optionals, groups, externals, columns)
        == Printed(entries[..|entries| - 1]) + epilog
  {
    var entries := HelpEntries(usage, description, epilog, optionals, groups,
                               externals, HelpWidth(columns));
    var front := entries[..|entries| - 1];
    assert entries == front + [epilog];
    PrintedSnoc(front, epilog);
    var body := Printed(front) + epilog;
    assert Printed(entries) == body + "\n";
    assert (body + "\n")[..|body + "\n"| - 1] == body;
    assert RStrip(body) == body;
  }

  lemma {:induction false} OptionalRowsList(optionals: seq<WestOptional>, width: Width, q: int)
    requires 0 <= q < |optionals|
    ensures Lists(OptionalRows(optionals, width), OptionThing(optionals[q]))
    decreases |optionals|
  {
    if q == 0 {
      FirstOptionalListed(optionals, width);
    } else {
      OptionalRowsList(optionals[1..], width, q - 1);
      LaterOptionalListed(optionals, width, q);
    }
  }

  lemma FirstOptionalListed(optionals: seq<WestOptional>, width: Width)
    requires optionals != []
    ensures Lists(OptionalRows(optionals, width), OptionThing(optionals[0]))
  {
    OptionalRowsCons(optionals, width);
    OptionalListed(optionals[0], width);
    ListsLeft(FormatWestOptional(optionals[0], width), OptionalRows(optionals[1..], width),
              OptionThing(optionals[0]));
  }

  lemma LaterOptionalListed(optionals: seq<WestOptional>, width: Width, q: int)
    requires 0 < q < |optionals|
    requires Lists(OptionalRows(optionals[1..], width), OptionThing(optionals[1..][q - 1]))
    ensures Lists(OptionalRows(optionals, width), OptionThing(optionals[q]))
  {
    assert optionals[1..][q - 1] == optionals[q];
    OptionalRowsCons(optionals, width);
    ListsRight(FormatWestOptional(optionals[0], width), OptionalRows(optionals[1..], width),
               OptionThing(optionals[q]));
  }

  lemma OptionalRowsCons(optionals: seq<WestOptional>, width: Width)
    requires optionals != []
    ensures OptionalRows(optionals, width)
      == FormatWestOptional(optionals[0], width) + OptionalRows(optionals[1..], width)
  {
  }

  lemma OptionalListed(o: WestOptional, width: Width)
    ensures Lists(FormatWestOptional(o, width), OptionThing(o))
  {
    var rows := FormatWestOptional(o, width);
    assert StartsWith(rows[0], OptionThing(o));
  }

  lemma ListsHead(first: seq<string>, rest: seq<string>, thing: string)
    requires |first| >= 1 && StartsWith(first[0], thing)
    ensures Lists(first + rest, thing)
  {
    assert (first + rest)[0] == first[0];
  }

  /** Some row from lo up to hi starts with thing. */
  predicate ListsWithin(rows: seq<string>, lo: int, hi: int, thing: string) {
    exists k :: lo <= k < hi && 0 <= k < |rows| && StartsWith(rows[k], thing)
  }

  lemma ListsInMiddle(a: seq<string>, x: seq<string>, b: seq<string>, thing: string)
    requires Lists(x, thing)
    ensures ListsWithin(a + x + b, |a|, |a| + |x|, thing)
  {
    var k :| 0 <= k < |x| && StartsWith(x[k], thing);
    assert (a + x + b)[|a| + k] == x[k];
  }

  /** The top-level help's sections come in order: the optionals, then the
      built-in commands by group, then the external commands by project,
      then the epilog. Each index given that names a recorded optional, a
      command of a titled group or an external spec is listed in its own
      section; the others are left unconstrained, so a workspace without
      extension commands is covered too. */
  lemma HelpSectionsInOrder(usage: string, description: string, epilog: string,
                            optionals: seq<WestOptional>, groups: seq<Registry.Group>,
                            externals: Externals.Table, width: Width,
                            q: int, i: int, j: int, p: int, r: int)
    ensures var entries := HelpEntries(usage, description, epilog, optionals, groups, externals, width);
      var o := 4 + |OptionalRows(optionals, width)|;
      var g := o + 1 + |GroupRows(groups, width)|;
      var x := g + |ExternalRows(externals, width)|;
      && x == |entries| - 1
      && (0 <= q < |optionals| ==> ListsWithin(entries, 4, o, OptionThing(optionals[q])))
      && (0 <= i < |groups| && groups[i].title.Some? && 0 <= j < |groups[i].commands| ==>
            ListsWithin(entries, o + 1, g, CommandThing(groups[i].commands[j].name)))
      && (0 <= p < |externals| && 0 <= r < |externals[p].specs| ==>
            && ListsWithin(entries, g, x, CommandThing(externals[p].specs[r].name))
            && ListsWithin(entries, g, x, ProjectHeader(externals[p].path)))
  {
    if 0 <= q < |optionals| {
      HelpOptionalWithin(usage, description, epilog, optionals, groups, externals, width, q);
    }
    if 0 <= i < |groups| && groups[i].title.Some? && 0 <= j < |groups[i].commands| {
      HelpBuiltinWithin(usage, description, epilog, optionals, groups, externals, width, i, j);
    }
    if 0 <= p < |externals| && 0 <= r < |externals[p].specs| {
      HelpExternalWithin(usage, description, epilog, optionals, groups, externals, width, p, r);
    }
  }

  lemma ListsWithinAppend(rows: seq<string>, more: seq<string>, lo: int, hi: int, thing: string)
    requires ListsWithin(rows, lo, hi, thing)
    ensures ListsWithin(rows + more, lo, hi, thing)
  {
    var k :| lo <= k < hi && 0 <= k < |rows| && StartsWith(rows[k], thing);
    assert (rows + more)[k] == rows[k];
  }

  lemma HelpOptionalWithin(usage: string, description: string, epilog: string,
                           optionals: seq<WestOptional>, groups: seq<Registry.Group>,
                           externals: Externals.Table, width: Width, q: int)
    requires 0 <= q < |optionals|
    ensures ListsWithin(HelpEntries(usage, description, epilog, optionals, groups, externals, width),
                        4, 4 + |OptionalRows(optionals, width)|, OptionThing(optionals[q]))
  {
    var head := [usage, description, "", "optional arguments:"];
    var opts := OptionalRows(optionals, width);
    var thing := OptionThing(optionals[q]);
    var hi := 4 + |opts|;
    OptionalRowsList(optionals, width, q);
    ListsInMiddle(head, opts, [""], thing);
    ListsWithinAppend(head + opts + [""], GroupRows(groups, width), 4, hi, thing);
    ListsWithinAppend(head + opts + [""] + GroupRows(groups, width),
                      ExternalRows(externals, width), 4, hi, thing);
    ListsWithinAppend(head + opts + [""] + GroupRows(groups, width) + ExternalRows(externals, width),
                      [epilog], 4, hi, thing);
  }

  lemma HelpBuiltinWithin(usage: string, description: string, epilog: string,
                          optionals: seq<WestOptional>, groups: seq<Registry.Group>,
                          externals: Externals.Table, width: Width, i: int, j: int)
    requires 0 <= i < |groups| && groups[i].title.Some? && 0 <= j < |groups[i].commands|
    ensures var o := 4 + |OptionalRows(optionals, width)|;
      ListsWithin(HelpEntries(usage, description, epilog, optionals, groups, externals, width),
                  o + 1, o + 1 + |GroupRows(groups, width)|, CommandThing(groups[i].commands[j].name))
  {
    var before := [usage, description, "", "optional arguments:"] + OptionalRows(optionals, width) + [""];
    var gr := GroupRows(groups, width);
    var thing := CommandThing(groups[i].commands[j].name);
    var lo := |before|;
    GroupRowsList(groups, width, i, j);
    ListsInMiddle(before, gr, ExternalRows(externals, width), thing);
    ListsWithinAppend(before + gr + ExternalRows(externals, width), [epilog], lo, lo + |gr|, thing);
  }

  lemma HelpExternalWithin(usage: string, description: string, epilog: string,
                           optionals: seq<WestOptional>, groups: seq<Registry.Group>,
                           externals: Externals.Table, width: Width, p: int, r: int)
    requires 0 <= p < |externals| && 0 <= r < |externals[p].specs|
    ensures var g := 4 + |OptionalRows(optionals, width)| + 1 + |GroupRows(groups, width)|;
      var entries := HelpEntries(usage, description, epilog, optionals, groups, externals, width);
      && g + |ExternalRows(externals, width)| == |entries| - 1
      && ListsWithin(entries, g, g + |ExternalRows(externals, width)|, CommandThing(externals[p].specs[r].name))
      && ListsWithin(entries, g, g + |ExternalRows(externals, width)|, ProjectHeader(externals[p].path))
  {
    var before := [usage, description, "", "optional arguments:"] + OptionalRows(optionals, width)
      + [""] + GroupRows(groups, width);
    var xr := ExternalRows(externals, width);
    ExternalRowsList(externals, width, p, r);
    ListsInMiddle(before, xr, [epilog], CommandThing(externals[p].specs[r].name));
    ListsInMiddle(before, xr, [epilog], ProjectHeader(externals[p].path));
  }
}

=== FILE: registry.dfy ===
/** The static catalogue of built-in commands: the visible project-command
    group, the hidden group (titled `None` in the source), and the set of
    names an extension command may never take. */
module Registry {
  import opened Util

  datatype Command = Command(name: string, help: Option<string>)

  /** A help group. The hidden group has no title and is skipped by the
      top-level help. */
  datatype Group = Group(title: Option<string>, commands: seq<Command>)

  /** The virtual `help` command, which is not part of any group. */
  const HelpName: string := "help"

  const ProjectGroupTitle: string := "commands for managing multiple git repositories"

  /** Names of the visible project commands, in registration order. */
  const ProjectCommandNames: seq<string> :=
    ["list", "manifest", "diff", "status", "update", "selfupdate", "forall", "config"]

  /** Names of the hidden lifecycle commands. */
  const HiddenCommandNames: seq<string> := ["post-init"]

  /** The west registry; command help texts are owned by the command
      classes and are given here as a parameter. */
  function WestGroups(helpOf: string -> Option<string>): (groups: seq<Group>)
    ensures |groups| == 2
    ensures groups[0].title == Some(ProjectGroupTitle) && groups[1].title.None?
    ensures |groups[0].commands| == |ProjectCommandNames|
    ensures forall j :: 0 <= j < |ProjectCommandNames| ==>
      groups[0].commands[j] == Command(ProjectCommandNames[j], helpOf(ProjectCommandNames[j]))
    ensures |groups[1].commands| == |HiddenCommandNames|
    ensures forall j :: 0 <= j < |HiddenCommandNames| ==>
      groups[1].commands[j] == Command(HiddenCommandNames[j], helpOf(HiddenCommandNames[j]))
  {
    [ Group(Some(ProjectGroupTitle),
            seq(|ProjectCommandNames|, i requires 0 <= i < |ProjectCommandNames| =>
              Command(ProjectCommandNames[i], helpOf(ProjectCommandNames[i])))),
      Group(None,
            seq(|HiddenCommandNames|, i requires 0 <= i < |HiddenCommandNames| =>
              Command(HiddenCommandNames[i], helpOf(HiddenCommandNames[i])))) ]
  }

  /** Some group of the registry declares a command called n. */
  ghost predicate Declares(groups: seq<Group>, n: string) {
    exists i, j :: 0 <= i < |groups| && 0 <= j < |groups[i].commands|
      && groups[i].commands[j].name == n
  }

  /** The names collected group by group, as the module-level loop does. */
  function NamesOf(groups: seq<Group>): set<string> {
    if groups == [] then {}
    else (set c | c in groups[0].commands :: c.name) + NamesOf(groups[1..])
  }

  lemma {:induction false} NamesOfDeclares(groups: seq<Group>, n: string)
    ensures n in NamesOf(groups) <==> Declares(groups, n)
    decreases |groups|
  {
    if groups != [] {
      NamesOfDeclares(groups[1..], n);
      if n in (set c | c in groups[0].commands :: c.name) {
        var c :| c in groups[0].commands && c.name == n;
        var j :| 0 <= j < |groups[0].commands| && groups[0].commands[j] == c;
        assert groups[0].commands[j].name == n;
      }
      if Declares(groups, n) {
        var i, j :| 0 <= i < |groups| && 0 <= j < |groups[i].commands|
          && groups[i].commands[j].name == n;
        if i == 0 {
          assert groups[0].commands[j] in groups[0].commands;
        } else {
          assert groups[1..][i - 1] == groups[i];
        }
      }
      if Declares(groups[1..], n) {
        var i, j :| 0 <= i < |groups[1..]| && 0 <= j < |groups[1..][i].commands|
          && groups[1..][i].commands[j].name == n;
        assert groups[i + 1].commands[j].name == n;
      }
    }
  }

  /** BUILTIN_COMMAND_NAMES: `help` plus every registered command name,
      hidden ones included. */
  function BuiltinNames(groups: seq<Group>): (names: set<string>)
    ensures HelpName in names
    ensures forall n :: n in names <==> n == HelpName || Declares(groups, n)
  {
    var names := {HelpName} + NamesOf(groups);
    assert forall n :: n in NamesOf(groups) <==> Declares(groups, n) by {
      forall n ensures n in NamesOf(groups) <==> Declares(groups, n) {
        NamesOfDeclares(groups, n);
      }
    }
    names
  }

  /** The first command called n, searching group by group. */
  function FindCommand(groups: seq<Group>, n: string): (r: Option<Command>)
    ensures r.Some? ==> r.value.name == n
    ensures r.None? <==> !Declares(groups, n)
    decreases |groups|
  {
    if groups == [] then None
    else
      var hit := FindIn(groups[0].commands, n);
      if hit.Some? then
        hit
      else
        var rest := FindCommand(groups[1..], n);
        assert rest.Some? ==> Declares(groups, n) by {
          if rest.Some? {
            var i, j :| 0 <= i < |groups[1..]| && 0 <= j < |groups[1..][i].commands|
              && groups[1..][i].commands[j].name == n;
            assert groups[i + 1].commands[j].name == n;
          }
        }
        assert Declares(groups, n) ==> rest.Some? by {
          if Declares(groups, n) {
            var i, j :| 0 <= i < |groups| && 0 <= j < |groups[i].commands|
              && groups[i].commands[j].name == n;
            if i == 0 {
              assert false;
            } else {
              assert groups[1..][i - 1] == groups[i];
            }
          }
        }
        rest
  }

  function FindIn(commands: seq<Command>, n: string): (r: Option<Command>)
    ensures r.Some? ==> r.value.name == n && r.value in commands
    ensures r.None? <==> forall j :: 0 <= j < |commands| ==> commands[j].name != n
    decreases |commands|
  {
    if commands == [] then None
    else if commands[0].name == n then Some(commands[0])
    else
      var r := FindIn(commands[1..], n);
      assert r.None? ==> forall j :: 0 <= j < |commands| ==> commands[j].name != n by {
        if r.None? {
          forall j | 0 <= j < |commands| ensures commands[j].name != n {
            if j > 0 { assert commands[1..][j - 1] == commands[j]; }
          }
        }
      }
      r
  }

  /** In the west registry the names an extension command may not take are
      `help` and the project and hidden command names, whatever the command
      help texts are. */
  lemma WestBuiltinNames(helpOf: string -> Option<string>)
    ensures forall n :: n in BuiltinNames(WestGroups(helpOf)) <==>
      n == HelpName || n in ProjectCommandNames || n in HiddenCommandNames
  {
    var groups := WestGroups(helpOf);
    forall n ensures Declares(groups, n) <==> n in ProjectCommandNames || n in HiddenCommandNames {
      if n in ProjectCommandNames {
        var j :| 0 <= j < |ProjectCommandNames| && ProjectCommandNames[j] == n;
        assert groups[0].commands[j].name == n;
      } else if n in HiddenCommandNames {
        assert HiddenCommandNames[0] == n;
        assert groups[1].commands[0].name == n;
      }
      if Declares(groups, n) {
        var i, j :| 0 <= i < |groups| && 0 <= j < |groups[i].commands|
          && groups[i].commands[j].name == n;
        if i == 0 {
          assert n == ProjectCommandNames[j];
        } else {
          assert n == HiddenCommandNames[j];
        }
      }
    }
  }
}

=== FILE: util.dfy ===
/** Small shared vocabulary: optional values, results, and the whitespace
    word-splitting that Python's str.split() performs, with the joins that
    undo it. */
module Util {

  datatype Option<T> = None | Some(value: T)

  datatype Result<T, E> = Ok(value: T) | Err(error: E)

  /** Python truthiness of an optional string: absent and empty are false. */
  predicate Truthy(s: Option<string>) {
    s.Some? && s.value != ""
  }

  predicate StartsWith(s: string, prefix: string) {
    |prefix| <= |s| && s[..|prefix|] == prefix
  }

  predicate EndsWith(s: string, suffix: string) {
    |suffix| <= |s| && s[|s| - |suffix|..] == suffix
  }

  predicate Contains(s: string, c: char) {
    exists i :: 0 <= i < |s| && s[i] == c
  }

  function Spaces(n: nat): (s: string)
    ensures |s| == n
    ensures forall i :: 0 <= i < n ==> s[i] == ' '
  {
    seq(n, _ => ' ')
  }

  /** The characters Python's str.isspace() accepts, which str.split()
      with no argument breaks on. */
  predicate IsSpace(c: char) {
    || c == ' '
    || ('\t' <= c <= '\r')
    || ('\U{1C}' <= c <= '\U{1F}')
    || c == '\U{85}' || c == '\U{A0}' || c == '\U{1680}'
    || ('\U{2000}' <= c <= '\U{200A}')
    || c == '\U{2028}' || c == '\U{2029}' || c == '\U{202F}'
    || c == '\U{205F}' || c == '\U{3000}'
  }

  predicate NoSpace(s: string) {
    forall i :: 0 <= i < |s| ==> !IsSpace(s[i])
  }

  predicate AllSpace(s: string) {
    forall i :: 0 <= i < |s| ==> IsSpace(s[i])
  }

  /** A word as str.split() returns it: non-empty, without whitespace. */
  predicate IsWord(w: string) {
    |w| > 0 && NoSpace(w)
  }

  function Flush(cur: string): seq<string> {
    if cur == [] then [] else [cur]
  }

  /** Scans s left to right, `cur` being the word read so far. */
  function WordsFrom(s: string, cur: string): seq<string>
    decreases |s|
  {
    if s == [] then Flush(cur)
    else if IsSpace(s[0]) then Flush(cur) + WordsFrom(s[1..], [])
    else WordsFrom(s[1..], cur + [s[0]])
  }

  /** Python's s.split(): the maximal runs of non-whitespace, in order. */
  function Words(s: string): seq<string> {
    WordsFrom(s, [])
  }

  /** sep.join(parts) */
  function JoinWith(parts: seq<string>, sep: string): string {
    if parts == [] then ""
    else if |parts| == 1 then parts[0]
    else parts[0] + sep + JoinWith(parts[1..], sep)
  }

  function Concat<T>(xss: seq<seq<T>>): seq<T> {
    if xss == [] then [] else xss[0] + Concat(xss[1..])
  }

  /** ' '.join(s.split()): runs of whitespace collapsed to one space,
      leading and trailing whitespace removed. */
  function Normalize(s: string): string {
    JoinWith(Words(s), " ")
  }

  /** The words of every part, in order. */
  function WordsOfAll(parts: seq<string>): seq<string> {
    if parts == [] then [] else Words(parts[0]) + WordsOfAll(parts[1..])
  }

  // ---------------------------------------------------------------------
  // Lemmas about Words

  lemma {:induction false} WordsFromAreWords(s: string, cur: string)
    requires NoSpace(cur)
    ensures forall i :: 0 <= i < |WordsFrom(s, cur)| ==> IsWord(WordsFrom(s, cur)[i])
    decreases |s|
  {
    if s == [] {
    } else if IsSpace(s[0]) {
      WordsFromAreWords(s[1..], []);
    } else {
      WordsFromAreWords(s[1..], cur + [s[0]]);
    }
  }

  /** Every element str.split() returns is a word. */
  lemma WordsAreWords(s: string)
    ensures forall i :: 0 <= i < |Words(s)| ==> IsWord(Words(s)[i])
  {
    WordsFromAreWords(s, []);
  }

  /** A whitespace character separates: the words of `a c b` are the words
      of a followed by the words of b. */
  lemma {:induction false} WordsFromSplit(a: string, c: char, b: string, cur: string)
    requires IsSpace(c)
    ensures WordsFrom(a + [c] + b, cur) == WordsFrom(a, cur) + WordsFrom(b, [])
    decreases |a|
  {
    var s := a + [c] + b;
    if a == [] {
      assert s == [c] + b;
      assert s[1..] == b;
    } else {
      assert s[0] == a[0];
      assert s[1..] == a[1..] + [c] + b;
      if IsSpace(a[0]) {
        WordsFromSplit(a[1..], c, b, []);
      } else {
        WordsFromSplit(a[1..], c, b, cur + [a[0]]);
      }
    }
  }

  lemma WordsSplit(a: string, c: char, b: string)
    requires IsSpace(c)
    ensures Words(a + [c] + b) == Words(a) + Words(b)
  {
    WordsFromSplit(a, c, b, []);
  }

  lemma {:induction false} WordsFromNoSpace(w: string, cur: string)
    requires NoSpace(w)
    ensures WordsFrom(w, cur) == Flush(cur + w)
    decreases |w|
  {
    if w != [] {
      assert cur + w == (cur + [w[0]]) + w[1..];
      WordsFromNoSpace(w[1..], cur + [w[0]]);
    } else {
      assert cur + w == cur;
    }
  }

  /** A single word splits to itself. */
  lemma WordsOfWord(w: string)
    requires IsWord(w)
    ensures Words(w) == [w]
  {
    WordsFromNoSpace(w, []);
    assert [] + w == w;
  }

  lemma {:induction false} WordsOfSpaces(s: string)
    requires AllSpace(s)
    ensures Words(s) == []
    decreases |s|
  {
    if s != [] {
      assert s == [] + [s[0]] + s[1..];
      WordsSplit([], s[0], s[1..]);
      WordsOfSpaces(s[1..]);
    }
  }

  /** Leading whitespace contributes no words. */
  lemma WordsDropLeadingSpace(sp: string, x: string)
    requires AllSpace(sp)
    ensures Words(sp + x) == Words(x)
  {
    if sp != [] {
      var k := |sp| - 1;
      var init := sp[..k];
      assert sp + x == init + [sp[k]] + x;
      assert AllSpace(init);
      WordsSplit(init, sp[k], x);
      WordsOfSpaces(init);
      assert Words(init) + Words(x) == Words(x);
    } else {
      assert sp + x == x;
    }
  }

  /** Joining with a whitespace separator and splitting again yields the
      words of every part, in order. */
  lemma {:induction false} WordsOfJoin(parts: seq<string>, c: char)
    requires IsSpace(c)
    ensures Words(JoinWith(parts, [c])) == WordsOfAll(parts)
    decreases |parts|
  {
    if parts == [] {
    } else if |parts| == 1 {
      assert parts[1..] == [];
    } else {
      var rest := JoinWith(parts[1..], [c]);
      assert JoinWith(parts, [c]) == parts[0] + [c] + rest;
      WordsSplit(parts[0], c, rest);
      WordsOfJoin(parts[1..], c);
    }
  }

  lemma {:induction false} WordsOfAllWords(ws: seq<string>)
    requires forall i :: 0 <= i < |ws| ==> IsWord(ws[i])
    ensures WordsOfAll(ws) == ws
    decreases |ws|
  {
    if ws != [] {
      WordsOfWord(ws[0]);
      WordsOfAllWords(ws[1..]);
    }
  }

  /** Splitting a space-joined list of words recovers the list. */
  lemma {:induction false} SplitJoinRoundTrip(ws: seq<string>)
    requires forall i :: 0 <= i < |ws| ==> IsWord(ws[i])
    ensures Words(JoinWith(ws, " ")) == ws
  {
    WordsOfJoin(ws, ' ');
    WordsOfAllWords(ws);
  }

  /** Normalization keeps the words and is idempotent. */
  lemma NormalizeKeepsWords(s: string)
    ensures Words(Normalize(s)) == Words(s)
    ensures Normalize(Normalize(s)) == Normalize(s)
  {
    WordsAreWords(s);
    SplitJoinRoundTrip(Words(s));
  }

  lemma {:induction false} ConcatAppend<T>(a: seq<seq<T>>, b: seq<seq<T>>)
    ensures Concat(a + b) == Concat(a) + Concat(b)
    decreases |a|
  {
    if a != [] {
      assert (a + b)[1..] == a[1..] + b;
      ConcatAppend(a[1..], b);
    } else {
      assert a + b == b;
    }
  }
}

=== FILE: zephyr.dfy ===
/** The Zephyr-base resolver: chooses ZEPHYR_BASE from the command-line
    override, the environment, and the zephyr.base / zephyr.base-prefer
    configuration settings, reports a stale environment or a missing value
    without aborting, and publishes the choice in the environment as an
    absolute path. os.path.abspath is a parameter. */
module ZephyrBase {
  import opened Util
  import Configuration

  const ZephyrBaseVar: string := "ZEPHYR_BASE"

  type Environment = map<string, string>

  /** Which source supplied the value. */
  datatype Origin = CommandLine | Env | ConfigFile | Unset

  datatype Diagnostic =
    /** The environment value is used although zephyr.base names another
        directory. */
    | MismatchWarning(envValue: string, configValue: string)
    /** No source gave a value. */
    | NotFoundError

  datatype Resolution = Resolution(
    value: Option<string>,
    origin: Origin,
    diagnostics: seq<Diagnostic>,
    env: Environment)

  function EnvGet(env: Environment, name: string): Option<string> {
    if name in env then Some(env[name]) else None
  }

  /** The environment-over-configuration fallback: no usable override, no
      preferred source present, but an environment value. */
  predicate EnvFallback(override: Option<string>, fromEnv: Option<string>, prefer: Option<string>,
                        fromConfig: Option<string>) {
    && !Truthy(override)
    && !(prefer == Some("env") && fromEnv.Some?)
    && !(prefer == Some("configfile") && fromConfig.Some?)
    && fromEnv.Some?
  }

  /** The decision ladder of set_zephyr_base, returning the chosen value, its
      origin and the diagnostics logged. The mismatch warning is issued
      exactly in the fallback, when the two values name different absolute
      paths, and the environment value is still used. */
  function Decide(override: Option<string>, fromEnv: Option<string>, prefer: Option<string>,
                  fromConfig: Option<string>, abspath: string -> string)
    : (r: (Option<string>, Origin, seq<Diagnostic>))
    ensures r.1 == Unset <==> r.0.None?
    ensures NotFoundError in r.2 <==> r.0.None?
    ensures r.1 == CommandLine ==> Truthy(override) && r.0 == Some(abspath(override.value))
    ensures r.1 == Env ==> r.0 == fromEnv
    ensures r.1 == ConfigFile ==> r.0 == fromConfig
    ensures (exists d :: d in r.2 && d.MismatchWarning?) <==>
      EnvFallback(override, fromEnv, prefer, fromConfig)
      && fromConfig.Some? && abspath(fromConfig.value) != abspath(fromEnv.value)
    ensures EnvFallback(override, fromEnv, prefer, fromConfig) ==> r.0 == fromEnv && r.1 == Env
    ensures |r.2| <= 1
  {
    if Truthy(override) then (Some(abspath(override.value)), CommandLine, [])
    else if prefer == Some("env") && fromEnv.Some? then (fromEnv, Env, [])
    else if prefer == Some("configfile") && fromConfig.Some? then (fromConfig, ConfigFile, [])
    else if fromEnv.Some? then
      var warn :=
        if fromConfig.Some? && abspath(fromConfig.value) != abspath(fromEnv.value)
        then [MismatchWarning(fromEnv.value, fromConfig.value)] else [];
      assert warn != [] ==> warn[0] in warn && warn[0].MismatchWarning?;
      (fromEnv, Env, warn)
    else if fromConfig.Some? then (fromConfig, ConfigFile, [])
    else (None, Unset, [NotFoundError])
  }

  /** set_zephyr_base: reads ZEPHYR_BASE from the environment and the two
      zephyr settings from the configuration, decides, and writes the
      absolute path of the chosen value back to ZEPHYR_BASE. */
  function SetZephyrBase(override: Option<string>, env: Environment, config: Configuration.Ini,
                         abspath: string -> string): (r: Resolution)
    ensures r.value.Some? ==> r.env == env[ZephyrBaseVar := abspath(r.value.value)]
    ensures r.value.None? ==> r.env == env
    ensures forall k :: k in env && k != ZephyrBaseVar ==> k in r.env && r.env[k] == env[k]
    ensures r.origin == Unset <==> r.value.None?
  {
    var d := Decide(override, EnvGet(env, ZephyrBaseVar),
                    Configuration.Lookup(config, "zephyr", "base-prefer"),
                    Configuration.Lookup(config, "zephyr", "base"), abspath);
    var env' := if d.0.Some? then env[ZephyrBaseVar := abspath(d.0.value)] else env;
    Resolution(d.0, d.1, d.2, env')
  }

  // ---------------------------------------------------------------------
  // The precedence table as an independent reading

  /** The sources in precedence order, each present only when its rule
      applies. */
  function Candidates(override: Option<string>, fromEnv: Option<string>, prefer: Option<string>,
                      fromConfig: Option<string>, abspath: string -> string)
    : seq<(Option<string>, Origin)>
  {
    [ (if Truthy(override) then Some(abspath(override.value)) else None, CommandLine),
      (if prefer == Some("env") then fromEnv else None, Env),
      (if prefer == Some("configfile") then fromConfig else None, ConfigFile),
      (fromEnv, Env),
      (fromConfig, ConfigFile) ]
  }

  /** The first candidate that is present, or nothing. */
  function FirstPresent(cs: seq<(Option<string>, Origin)>): (Option<string>, Origin) {
    if cs == [] then (None, Unset)
    else if cs[0].0.Some? then cs[0]
    else FirstPresent(cs[1..])
  }

  /** The resolver picks the first present source of the precedence chain:
      command line, then the environment when preferred, then the
      configuration when preferred, then the environment, then the
      configuration; with none present nothing is resolved. */
  lemma ResolutionFollowsPrecedence(override: Option<string>, env: Environment,
                                    config: Configuration.Ini, abspath: string -> string)
    ensures var r := SetZephyrBase(override, env, config, abspath);
      (r.value, r.origin) == FirstPresent(Candidates(override, EnvGet(env, ZephyrBaseVar),
        Configuration.Lookup(config, "zephyr", "base-prefer"),
        Configuration.Lookup(config, "zephyr", "base"), abspath))
  {
    var cs := Candidates(override, EnvGet(env, ZephyrBaseVar),
        Configuration.Lookup(config, "zephyr", "base-prefer"),
        Configuration.Lookup(config, "zephyr", "base"), abspath);
    var c1 := cs[1..];
    var c2 := c1[1..];
    var c3 := c2[1..];
    var c4 := c3[1..];
    assert c4[1..] == [];
    assert FirstPresent(c4) == (if cs[4].0.Some? then cs[4] else (None, Unset));
    assert FirstPresent(c3) == (if cs[3].0.Some? then cs[3] else FirstPresent(c4));
    assert FirstPresent(c2) == (if cs[2].0.Some? then cs[2] else FirstPresent(c3));
    assert FirstPresent(c1) == (if cs[1].0.Some? then cs[1] else FirstPresent(c2));
  }

  /** The warning never changes the outcome: whatever abspath is, the same
      source is chosen, and the chosen value only depends on abspath when
      it comes from the command line. */
  lemma WarningDoesNotDecide(override: Option<string>, env: Environment, config: Configuration.Ini,
                             abspath1: string -> string, abspath2: string -> string)
    ensures var r1 := SetZephyrBase(override, env, config, abspath1);
      var r2 := SetZephyrBase(override, env, config, abspath2);
      && r1.origin == r2.origin
      && (r1.origin != CommandLine ==> r1.value == r2.value)
      && (NotFoundError in r1.diagnostics <==> NotFoundError in r2.diagnostics)
  {
  }
}
